=== FILE: README.md ===
# Campus voice assistant: query processing

This project models the query processor of a campus voice assistant. A spoken question,
already turned into text, is handled in three steps:

1. **Analysis** (`QueryAnalysis`). The question is lower-cased and split at white space.
   It gets one of four categories by substring containment, tested in the fixed order
   class, event, department, FAQ. The category's trigger words are removed from the
   tokens by exact match, and the last weekday name that occurs in the question is kept.
2. **Execution** (`QueryExecution`). The analysed query becomes one read of a table:
   - `classes`: an optional weekday and an optional keyword, ordered by start time;
   - `events`: an optional keyword, dated today or later, ordered by date, at most five;
   - `departments`: an optional keyword;
   - `faqs`: the whole table, ranked by relevance (`FaqMatch`).
   Any failed read gives one fixed error sentence.
3. **Answering** (`Responses`). A single class, event or department gets a detailed
   sentence. Several get "I found N …" followed by a comma-separated list. Classes are
   listed at most five at a time. Times are shown on a 12-hour clock.

The row types are in `Records`. `Text` holds the JavaScript string operations the code
relies on: `toLowerCase`, `includes`, `split(/\s+/)`, `split(':')`, `join`, `parseInt`,
number-to-text and the ascending order of text columns. `Seqs` holds `filter` and a
stable ordering by a text key.

Step-by-step code is modelled by methods proved against specification functions:
- `AnalyzeQuery` computes `Analyze`;
- `ScoreFaq` computes `Score`;
- `FindBestFaqMatch` picks `BestIndex` of the scores;
- `ExecuteQuery` answers with the functions that describe each read.

The properties the assistant relies on are lemmas about those functions.

Two behaviours of the code are worth knowing:
- `"".split(/\s+/)` is `[""]`, so the empty question gives the single keyword `""`. An
  all-blank question gives `["", ""]`, because the leading and trailing fields are both
  empty. Both match no trigger word, so both are FAQ queries. The empty keyword is too
  short to score, so they get the broad fallback sentence whenever there are FAQs. The
  empty keyword is the first keyword of a class, event or department query, and then
  matches every row (its filter pattern is `%%`), when the question starts with white
  space, or ends with it after nothing but trigger words (for classes, also weekdays),
  as in `" classes"` and `"classes "`.
- "Today" is the UTC date taken from `toISOString`, not the local date. It is an input.

## Model

| member | source | states |
|---|---|---|
| QueryAnalysis.Analyze | college-main/college-main/src/lib/queryProcessor.ts:30-65 | the category is never `unknown`; it is `class` exactly when some class phrase occurs in the lower-cased query, `event` exactly when no class phrase but an event phrase occurs, `department` and `faq` likewise; a token is a keyword exactly when it is a whitespace-separated token of the lower-cased query that is not a trigger word of the category; `department` and `category` are always absent |
| QueryAnalysis.AnalyzeQuery | college-main/college-main/src/lib/queryProcessor.ts:30-65 | the procedure (weekday scan where a later match overwrites, one branch per category pushing the filtered tokens) yields exactly `Analyze` |
| QueryAnalysis.LastMentionedIsLast | college-main/college-main/src/lib/queryProcessor.ts:44-48 | an overwrite-on-match scan gives nothing exactly when no name occurs, else a name that occurs with no later name occurring |
| QueryAnalysis.AnalyzeDay | college-main/college-main/src/lib/queryProcessor.ts:44-48 | the weekday is absent exactly when no weekday name occurs in the lower-cased query; otherwise it is the last one, Monday to Sunday order, that occurs, whatever the category |
| Seqs.FilterAppend | college-main/college-main/src/lib/queryProcessor.ts:50-59 | filtering the tokens of two pieces gives the kept tokens of each piece, in order, so kept keywords keep their order |
| QueryAnalysis.FaqKeepsEveryToken | college-main/college-main/src/lib/queryProcessor.ts:60-62 | an FAQ query keeps every token, in order |
| QueryAnalysis.PhrasesNeverRemoveTokens | college-main/college-main/src/lib/queryProcessor.ts:25-28 | since tokens hold no white space, "where is" and "head of" never remove a token; only the six one-word department triggers do |
| QueryAnalysis.EmptyQuery | college-main/college-main/src/lib/queryProcessor.ts:31-32 | the empty query is an FAQ query whose only keyword is the empty token, with no weekday |
| QueryAnalysis.OneWordClassQuery | college-main/college-main/src/lib/queryProcessor.ts:40-52 | a one-word lower-case query containing a class phrase without being a trigger word or weekday is a class query that keeps its word |
| QueryAnalysis.ClassWordThenBlank | college-main/college-main/src/lib/queryProcessor.ts:31-52 | a lower-case class trigger word followed by a blank is a class query whose only keyword is the empty token |
| QueryAnalysis.BlankThenClassWord | college-main/college-main/src/lib/queryProcessor.ts:31-52 | a blank followed by a lower-case class trigger word is a class query whose only keyword is the empty token |
| QueryAnalysis.ClassesThenBlank | college-main/college-main/src/lib/queryProcessor.ts:31-52 | "classes " is a class query whose only keyword is the empty token |
| QueryAnalysis.BlankThenClasses | college-main/college-main/src/lib/queryProcessor.ts:31-52 | " classes" is a class query whose only keyword is the empty token |
| QueryAnalysis.ClassroomIsAClassQuery | college-main/college-main/src/lib/queryProcessor.ts:40-52 | "classroom" is a class query (it contains "class") yet keeps the keyword "classroom" (no exact match) |
| FaqMatch.ScoreFaq | college-main/college-main/src/lib/queryProcessor.ts:218-236 | the scoring loops compute `Score`: one point per keyword longer than two characters found in the lower-cased "question answer" text, two per (tag, such keyword) pair whose lower-cased tag contains the keyword |
| FaqMatch.ShortKeywordsNeverScore | college-main/college-main/src/lib/queryProcessor.ts:223-231 | a keyword list made only of keywords of at most two characters scores 0, in the text and in tags |
| FaqMatch.ShortKeywordAddsNothing | college-main/college-main/src/lib/queryProcessor.ts:223-231 | a keyword of at most two characters, wherever it stands among other keywords, leaves every FAQ's score unchanged |
| FaqMatch.ScoreBound | college-main/college-main/src/lib/queryProcessor.ts:218-236 | a score is at most the keyword count times one plus twice the tag count |
| FaqMatch.LibraryHoursExample | college-main/college-main/src/lib/queryProcessor.ts:229-234 | "library hours" against an FAQ tagged "hours" whose text names neither scores exactly 2 (containment is tag-contains-keyword) |
| FaqMatch.BestIndexIsFirstMaximal | college-main/college-main/src/lib/queryProcessor.ts:238-244 | no choice exactly when every score is 0 (no FAQs included); otherwise a positive score no other score exceeds, with every earlier score strictly lower |
| FaqMatch.BestIndexStep | college-main/college-main/src/lib/queryProcessor.ts:238-241 | one more FAQ changes the choice only when its score is strictly above the best so far |
| FaqMatch.FindBestFaqMatch | college-main/college-main/src/lib/queryProcessor.ts:214-245 | the scan returns the FAQ at `BestIndex` of the scores, and returns null exactly when every FAQ scores 0 |
| Responses.FormatTime | college-main/college-main/src/lib/queryProcessor.ts:247-253 | the text always closes with " AM" or " PM", and without a colon the minutes read "undefined"; for digit hours 0-23 the exact 12-hour text is given by FormatTimeOfClockTime |
| Responses.DisplayHour | college-main/college-main/src/lib/queryProcessor.ts:251-251 | for hours 0 to 23 the shown hour is between 1 and 12 and agrees with the hour modulo 12 |
| Responses.Meridiem | college-main/college-main/src/lib/queryProcessor.ts:250-250 | "PM" exactly from hour 12 on |
| Responses.FormatTimeOfClockTime | college-main/college-main/src/lib/queryProcessor.ts:247-253 | for a digit hour 0 to 23, the text is the 12-hour hour, the minutes copied unchanged, seconds dropped, then AM before noon and PM from noon |
| Responses.TallyStatesCount | college-main/college-main/src/lib/queryProcessor.ts:181-181 | an "I found …" answer opens with "I found " and reading the number back gives the count |
| Responses.TallyListsEvery | college-main/college-main/src/lib/queryProcessor.ts:177-181 | every listed item occurs in an "I found …" answer |
| Responses.FormatClassResponse | college-main/college-main/src/lib/queryProcessor.ts:171-182 | every answer about classes closes with a period; its content is stated by SingleClassSentence, ClassResponseStatesCount, ClassResponseListsFirstFive and ClassResponseIgnoresBeyondFive |
| Responses.SingleClassSentence | college-main/college-main/src/lib/queryProcessor.ts:172-175 | one class: the answer names subject, code, day, both times, room and instructor |
| Responses.ClassResponseStatesCount | college-main/college-main/src/lib/queryProcessor.ts:177-181 | other than one class: the answer states the true number of classes, not the number listed |
| Responses.ClassResponseListsFirstFive | college-main/college-main/src/lib/queryProcessor.ts:177-179 | other than one class: each of the first five classes is listed |
| Responses.ClassResponseIgnoresBeyondFive | college-main/college-main/src/lib/queryProcessor.ts:177-177 | classes after the fifth never change the answer beyond the count |
| Responses.FormatEventResponse | college-main/college-main/src/lib/queryProcessor.ts:184-195 | one event: the answer closes with the event's description; several: it closes with a period; its content is stated by SingleEventSentence, EventResponseStatesCount and EventResponseListsEvery |
| Responses.SingleEventSentence | college-main/college-main/src/lib/queryProcessor.ts:185-188 | one event: the answer names title, formatted date, location and description |
| Responses.EventResponseStatesCount | college-main/college-main/src/lib/queryProcessor.ts:190-194 | several events: the answer states their number |
| Responses.EventResponseListsEvery | college-main/college-main/src/lib/queryProcessor.ts:190-194 | several events: every event is listed |
| Responses.FormatDepartmentResponse | college-main/college-main/src/lib/queryProcessor.ts:197-212 | every answer about departments closes with a period, with or without the e-mail clause; its content is stated by DepartmentEmailClause, SingleDepartmentSentence, DepartmentResponseStatesCount and DepartmentResponseListsEvery |
| Responses.DepartmentEmailClause | college-main/college-main/src/lib/queryProcessor.ts:198-204 | one department: the answer starts with the location-and-head sentence and goes on, with the address, exactly when the e-mail is a non-empty string |
| Responses.SingleDepartmentSentence | college-main/college-main/src/lib/queryProcessor.ts:198-200 | one department: the answer names department, location and head |
| Responses.DepartmentResponseStatesCount | college-main/college-main/src/lib/queryProcessor.ts:207-211 | several departments: the answer states their number |
| Responses.DepartmentResponseListsEvery | college-main/college-main/src/lib/queryProcessor.ts:207-211 | several departments: every department is listed |
| QueryExecution.ExecuteQuery | college-main/college-main/src/lib/queryProcessor.ts:67-169 | unknown queries get the default sentence without a read; a failed read gives the error sentence; otherwise the answer formats the rows read, or gives the category's "nothing found" sentence, day-specific for classes when a weekday is set; FAQ queries give the best FAQ's answer or one of two fallbacks |
| QueryExecution.FaqAnswer | college-main/college-main/src/lib/queryProcessor.ts:149-159 | the broad fallback sentence when every FAQ scores 0; otherwise the stored answer of an FAQ with a positive score that no other FAQ exceeds and every earlier FAQ scores strictly below, so the first of equally scored FAQs wins |
| QueryExecution.EmptyQueryGetsFallback | college-main/college-main/src/lib/queryProcessor.ts:153-159 | the empty question is an FAQ query and, its only keyword being too short to score, gets the broad fallback sentence whenever the FAQ table is not empty (an empty table gets the other fallback, as `ExecuteQuery` states) |
| QueryExecution.ClassRowsAreMatchingClassesByStartTime | college-main/college-main/src/lib/queryProcessor.ts:72-85 | the classes read are exactly those on the query's weekday (ignoring case) matching the first keyword in subject name, code, instructor or department, as often as in the table, ascending by start time |
| QueryExecution.EventRowsAreUpcomingMatches | college-main/college-main/src/lib/queryProcessor.ts:100-110 | each event read is dated today or later and matches the first keyword in title, description or category, ascending by date; exactly min(5, number of matching upcoming events) are read, so when at most five match, every one of them is read |
| QueryExecution.EventRowsAreEarliest | college-main/college-main/src/lib/queryProcessor.ts:107-110 | a matching upcoming event left out is dated no earlier than any event read |
| QueryExecution.DepartmentRowsMatchKeyword | college-main/college-main/src/lib/queryProcessor.ts:123-130 | the departments read are those whose name or non-null description contains the first keyword, ignoring case; all of them without a keyword |
| QueryExecution.ErrorIsDistinguishable | college-main/college-main/src/lib/queryProcessor.ts:164-168 | the error sentence differs from every "nothing found" sentence |
| QueryExecution.NoClassesOnDayReadsNothing | college-main/college-main/src/lib/queryProcessor.ts:75-78 | when no class is held on the named weekday, no class is read |
| QueryExecution.NoClassesOnMessageNamesTheDay | college-main/college-main/src/lib/queryProcessor.ts:89-92 | the empty-result sentence for a named weekday contains it and differs from the one without a weekday |
| Seqs.SortByIsSortedPermutation | college-main/college-main/src/lib/queryProcessor.ts:85-85 | ordering rows by a column gives an ascending permutation of them |
| Text.SplitWhitespaceShape | college-main/college-main/src/lib/queryProcessor.ts:32-32 | splitting at white space gives at least one token, no token holds white space, and together they hold every other character in order |
| Text.SplitWhitespaceAtRun | college-main/college-main/src/lib/queryProcessor.ts:32-32 | every maximal run of white space is a token boundary: the tokens of `a`, a run, then `b` are the tokens of `a` followed by those of `b` |
| Text.IncludesIff | college-main/college-main/src/lib/queryProcessor.ts:40-42 | `includes` holds exactly when the text occurs at some position |

## Left out

- The data store client and the network. Each read is modelled by its result: the rows of the table (`Tables`) or a failure (`fetchFails`). Any failure takes the error path.
- A `null` `data` with no error is not modelled; the code treats it like an empty result.
- The database's own filter, order and limit are modelled as functions (`RunClassQuery`, `RunEventQuery`, `RunDepartmentQuery`).
- `%` and `_` inside a keyword are matched literally, not as `ILIKE` wildcards.
- `*`, which the data store accepts in `ilike` filter patterns as another spelling of `%`, is matched literally inside a keyword.
- `%` and `_` in the weekday pattern (`ILikeEquals`) are also matched literally. Weekday values come from a fixed list of names without them, but a stored `day_of_week` holding them is compared as plain text.
- Keywords containing `,`, `.` or parentheses are treated as plain text, though they would change the meaning of the `or(...)` filter string.
- Ordering by `start_time` and `event_date` is text order, which equals time and date order for zero-padded values.
- Rows with equal keys keep table order, where the database leaves their order unspecified. Departments come back in table order.
- `new Date()` is the input `today`.
- `formatDate` and `toLocaleDateString` are the function parameter `formatDate`, because locale date formatting is host behaviour.
- `toLowerCase` and `toUpperCase` change only ASCII letters; other Unicode case mappings are not modelled.
- FaqMatch.Significant: `keyword.length > 2` counts UTF-16 code units, while the model counts Unicode scalar values. A keyword with a character outside the Basic Multilingual Plane (such as "a😀", length 3 in JavaScript, 2 here) can be significant in the code but not in the model.
- `parseInt` is modelled in base 10 only. A `0x` prefix is not recognised.
- `parseInt` returns a JavaScript double, while `ParseInt` and `IntToString` (used by `FormatTime`) are exact. An hour above 2^53 is rounded in the code, and from 10^21 on it prints in exponent form (`1e+21`).
- `\` is the default escape character of PostgreSQL's `ILIKE`. A keyword holding `\` is not matched literally in the code (the pattern `%a\b%` matches "ab"); `ILikeContains` matches it literally.
- `console.error` logging on failure is left out (output only).
- A `null` tag list on an FAQ (the `if (faq.keywords)` guard) is modelled as the empty list, since the row type declares a list.
- The speech layer (speech recognition and synthesis), the React components and the admin panel are not part of this model.
- Responses.ClassResponseListsFirstFive: states that the first five classes are listed, not the exact list text. `ClassSummaries` and `Join` define that text.

=== FILE: analysis.dfy ===
/**
 * Query understanding: a raw utterance becomes a query category, the tokens left
 * after the category's trigger words are removed, and an optional weekday.
 *
 * `Analyze` is the specification, written with expressions; `AnalyzeQuery` is the
 * step-by-step procedure of the assistant (a weekday scan in which a later match
 * overwrites an earlier one, then one branch per category that pushes the kept
 * tokens) proved to compute it.
 */
module QueryAnalysis {

  import opened Wrappers
  import opened Text
  import opened Seqs

  /** The categories a query can fall into; `Unknown` is never produced by `Analyze`. */
  datatype QueryType = Class | Event | Department | Faq | Unknown

  /** The analysis of a query. `department` and `category` are reserved and always absent. */
  datatype ProcessedQuery = ProcessedQuery(
    queryType: QueryType,
    keywords: seq<string>,
    day: Option<string>,
    department: Option<string>,
    category: Option<string>)

  const Days: seq<string> :=
    ["monday", "tuesday", "wednesday", "thursday", "friday", "saturday", "sunday"]

  const ClassVocabulary: seq<string> :=
    ["class", "classes", "schedule", "timetable", "course", "courses",
     "lecture", "lectures", "subject", "subjects", "today", "tomorrow"]

  const EventVocabulary: seq<string> :=
    ["event", "events", "happening", "activity", "activities",
     "festival", "competition", "seminar", "workshop", "meeting"]

  const DepartmentVocabulary: seq<string> :=
    ["department", "dept", "office", "faculty", "contact",
     "location", "where is", "head of"]

  /** Some phrase of `vocabulary` occurs anywhere in `text` (substring containment). */
  predicate MentionsAny(text: string, vocabulary: seq<string>) {
    exists i | 0 <= i < |vocabulary| :: Includes(text, vocabulary[i])
  }

  /** The last of `names` (in their order) that occurs in `text`, if any. */
  function LastMentioned(text: string, names: seq<string>): Option<string> {
    if names == [] then None
    else if Includes(text, names[|names| - 1]) then Some(names[|names| - 1])
    else LastMentioned(text, names[..|names| - 1])
  }

  /** The category chosen by the fixed precedence class, event, department, FAQ. */
  function Categorize(lowered: string): QueryType {
    if MentionsAny(lowered, ClassVocabulary) then Class
    else if MentionsAny(lowered, EventVocabulary) then Event
    else if MentionsAny(lowered, DepartmentVocabulary) then Department
    else Faq
  }

  /** A token is dropped when it is exactly a trigger word of the category (or, for classes, a weekday). */
  predicate Excluded(t: QueryType, w: string) {
    match t
    case Class => w in ClassVocabulary || w in Days
    case Event => w in EventVocabulary
    case Department => w in DepartmentVocabulary
    case Faq => false
    case Unknown => false
  }

  function Keeps(t: QueryType): string -> bool {
    w => !Excluded(t, w)
  }

  /** The analysis of `query`. */
  function Analyze(query: string): (r: ProcessedQuery)
    ensures r.queryType != Unknown
    ensures r.queryType == Class <==> MentionsAny(Lower(query), ClassVocabulary)
    ensures r.queryType == Event <==>
      !MentionsAny(Lower(query), ClassVocabulary) && MentionsAny(Lower(query), EventVocabulary)
    ensures r.queryType == Department <==>
      !MentionsAny(Lower(query), ClassVocabulary) && !MentionsAny(Lower(query), EventVocabulary)
      && MentionsAny(Lower(query), DepartmentVocabulary)
    ensures r.queryType == Faq <==>
      !MentionsAny(Lower(query), ClassVocabulary) && !MentionsAny(Lower(query), EventVocabulary)
      && !MentionsAny(Lower(query), DepartmentVocabulary)
    ensures forall w :: w in r.keywords <==>
      w in SplitWhitespace(Lower(query)) && !Excluded(r.queryType, w)
    ensures r.department == None && r.category == None
  {
    var lowered := Lower(query);
    var t := Categorize(lowered);
    ProcessedQuery(t, Filter(SplitWhitespace(lowered), Keeps(t)), LastMentioned(lowered, Days), None, None)
  }

  /** The assistant's procedure: lower-case, split, test the vocabularies, scan the weekdays, then push the kept tokens. */
  method AnalyzeQuery(query: string) returns (r: ProcessedQuery)
    ensures r == Analyze(query)
  {
    var lowerQuery := Lower(query);
    var words := SplitWhitespace(lowerQuery);

    var queryType := Unknown;
    var keywords: seq<string> := [];
    var day: Option<string> := None;

    var hasClassKeyword := MentionsAny(lowerQuery, ClassVocabulary);
    var hasEventKeyword := MentionsAny(lowerQuery, EventVocabulary);
    var hasDepartmentKeyword := MentionsAny(lowerQuery, DepartmentVocabulary);

    for i := 0 to |Days|
      invariant day == LastMentioned(lowerQuery, Days[..i])
    {
      assert Days[..i + 1][..i] == Days[..i];
      if Includes(lowerQuery, Days[i]) {
        day := Some(Days[i]);
      }
    }
    assert Days[..|Days|] == Days;

    if hasClassKeyword {
      queryType := Class;
      keywords := keywords + Filter(words, Keeps(Class));
    } else if hasEventKeyword {
      queryType := Event;
      keywords := keywords + Filter(words, Keeps(Event));
    } else if hasDepartmentKeyword {
      queryType := Department;
      keywords := keywords + Filter(words, Keeps(Department));
    } else {
      queryType := Faq;
      keywords := keywords + words;
      FilterKeepsAll(words, Keeps(Faq));
    }

    r := ProcessedQuery(queryType, keywords, day, None, None);
  }

  // ---------------------------------------------------------------------------
  // Properties of the analysis
  // ---------------------------------------------------------------------------

  /**
   * `LastMentioned` is absent exactly when no name occurs; otherwise it is a name that
   * occurs and no later name occurs.
   */
  lemma {:induction false} LastMentionedIsLast(text: string, names: seq<string>)
    ensures LastMentioned(text, names) == None <==>
      forall k :: 0 <= k < |names| ==> !Includes(text, names[k])
    ensures LastMentioned(text, names).Some? ==>
      exists k :: 0 <= k < |names| && names[k] == LastMentioned(text, names).value
        && Includes(text, names[k])
        && forall j :: k < j < |names| ==> !Includes(text, names[j])
  {
    if names != [] {
      var n := |names| - 1;
      var init := names[..n];
      if !Includes(text, names[n]) {
        LastMentionedIsLast(text, init);
        assert forall k :: 0 <= k < n ==> init[k] == names[k];
        if LastMentioned(text, init).Some? {
          var k :| 0 <= k < |init| && init[k] == LastMentioned(text, init).value
            && Includes(text, init[k])
            && forall j :: k < j < |init| ==> !Includes(text, init[j]);
          assert names[k] == init[k];
          assert forall j :: k < j < |names| ==> !Includes(text, names[j]);
        }
      }
    }
  }

  /**
   * The weekday of a query is set whatever the category: absent when no weekday name
   * occurs in the lower-cased query, otherwise the last weekday, Monday to Sunday, that occurs.
   */
  lemma AnalyzeDay(query: string)
    ensures Analyze(query).day == None <==>
      forall k :: 0 <= k < |Days| ==> !Includes(Lower(query), Days[k])
    ensures Analyze(query).day.Some? ==>
      exists k :: 0 <= k < |Days| && Days[k] == Analyze(query).day.value
        && Includes(Lower(query), Days[k])
        && forall j :: k < j < |Days| ==> !Includes(Lower(query), Days[j])
  {
    LastMentionedIsLast(Lower(query), Days);
  }

  /** An FAQ query keeps every whitespace-separated token, in order. */
  lemma FaqKeepsEveryToken(query: string)
    requires Analyze(query).queryType == Faq
    ensures Analyze(query).keywords == SplitWhitespace(Lower(query))
  {
    FilterKeepsAll(SplitWhitespace(Lower(query)), Keeps(Faq));
  }

  /**
   * A token never contains white space, so the two-word department phrases
   * "where is" and "head of" never remove a token: only the single-word ones do.
   */
  lemma PhrasesNeverRemoveTokens(query: string)
    ensures forall w :: w in SplitWhitespace(Lower(query)) ==>
      (Excluded(Department, w) <==>
        w in ["department", "dept", "office", "faculty", "contact", "location"])
  {
    var tokens := SplitWhitespace(Lower(query));
    SplitWhitespaceShape(Lower(query));
    forall w | w in tokens
      ensures w != "where is" && w != "head of"
    {
      var k :| 0 <= k < |tokens| && tokens[k] == w;
      assert NoWhitespace(tokens[k]);
      if |w| == 8 {
        assert IsWhitespace(" "[0]);
        assert w[5] != ' ';
      } else if |w| == 7 {
        assert w[4] != ' ';
      }
    }
  }

  /** No name occurs in a text that lacks one of each name's characters. */
  lemma NoneMentioned(text: string, names: seq<string>, witnesses: seq<char>)
    requires |witnesses| == |names|
    requires forall k :: 0 <= k < |names| ==> witnesses[k] in names[k] && witnesses[k] !in text
    ensures LastMentioned(text, names) == None
  {
    forall k | 0 <= k < |names|
      ensures !Includes(text, names[k])
    {
      if Includes(text, names[k]) {
        IncludesChars(text, names[k], witnesses[k]);
      }
    }
    LastMentionedIsLast(text, names);
  }

  /** An empty query is an FAQ query whose only keyword is the empty token. */
  lemma EmptyQuery()
    ensures Analyze("") == ProcessedQuery(Faq, [""], None, None, None)
  {
    assert Lower("") == "";
    assert !MentionsAny("", ClassVocabulary);
    assert !MentionsAny("", EventVocabulary);
    assert !MentionsAny("", DepartmentVocabulary);
    SplitWithoutWhitespace("");
    assert Filter([""], Keeps(Faq)) == [""];
    NoneMentioned("", Days, "mtwtfss");
  }

  /**
   * A one-word, lower-case query that contains a class phrase without being a class
   * word or a weekday, and names no weekday, is a class query that keeps its word.
   */
  lemma OneWordClassQuery(q: string)
    requires NoWhitespace(q) && Lower(q) == q
    requires MentionsAny(q, ClassVocabulary)
    requires q !in ClassVocabulary && q !in Days
    requires LastMentioned(q, Days) == None
    ensures Analyze(q) == ProcessedQuery(Class, [q], None, None, None)
  {
    SplitWithoutWhitespace(q);
    assert Filter([q], Keeps(Class)) == [q];
  }

  lemma ClassroomIsOneLowercaseWord()
    ensures NoWhitespace("classroom") && Lower("classroom") == "classroom"
  {
    LowercaseWord("classroom");
  }

  lemma ClassroomNamesNoWeekday()
    ensures LastMentioned("classroom", Days) == None
  {
    NoneMentioned("classroom", Days, "ytwtftu");
  }

  lemma ClassroomMentionsClass()
    ensures MentionsAny("classroom", ClassVocabulary)
  {
    assert Includes("classroom", ClassVocabulary[0]) by {
      assert "classroom"[..5] == ClassVocabulary[0];
    }
  }

  lemma ClassroomIsNoTriggerWord()
    ensures "classroom" !in ClassVocabulary && "classroom" !in Days
  {
  }

  /** "classroom" is a class query (containment), yet the token "classroom" is kept (exact match). */
  lemma ClassroomIsAClassQuery()
    ensures Analyze("classroom") == ProcessedQuery(Class, ["classroom"], None, None, None)
  {
    ClassroomIsOneLowercaseWord();
    ClassroomNamesNoWeekday();
    ClassroomMentionsClass();
    ClassroomIsNoTriggerWord();
    OneWordClassQuery("classroom");
  }

  /**
   * A class trigger word followed by a blank is a class query whose only keyword is the
   * empty token: the trigger word is dropped, and the blank ends the split with "".
   */
  lemma ClassWordThenBlank(q: string)
    requires q in ClassVocabulary && NoWhitespace(q) && Lower(q) == q
    ensures Analyze(q + " ").queryType == Class && Analyze(q + " ").keywords == [""]
  {
    LowerWithBlank(q);
    WordWithBlankMentions(q, ClassVocabulary);
    SplitWordThenBlank(q);
    EmptyTokenIsKept(q);
  }

  /** The same with the blank in front: the split then starts with "". */
  lemma BlankThenClassWord(q: string)
    requires q in ClassVocabulary && NoWhitespace(q) && Lower(q) == q
    ensures Analyze(" " + q).queryType == Class && Analyze(" " + q).keywords == [""]
  {
    LowerWithBlank(q);
    WordWithBlankMentions(q, ClassVocabulary);
    SplitBlankThenWord(q);
    EmptyTokenIsKept(q);
  }

  /** A blank is its own lower-case form. */
  lemma LowerWithBlank(q: string)
    requires Lower(q) == q
    ensures Lower(q + " ") == q + " " && Lower(" " + q) == " " + q
  {
    var s := q + " ";
    forall i | 0 <= i < |s|
      ensures Lower(s)[i] == s[i]
    {
      if i < |q| {
        assert s[i] == q[i] && Lower(q)[i] == LowerChar(q[i]);
      }
    }
    var t := " " + q;
    forall i | 0 <= i < |t|
      ensures Lower(t)[i] == t[i]
    {
      if 0 < i {
        assert t[i] == q[i - 1] && Lower(q)[i - 1] == LowerChar(q[i - 1]);
      }
    }
  }

  /** A blank next to a phrase leaves the phrase mentioned. */
  lemma WordWithBlankMentions(q: string, vocabulary: seq<string>)
    requires q in vocabulary
    ensures MentionsAny(q + " ", vocabulary) && MentionsAny(" " + q, vocabulary)
  {
    var k :| 0 <= k < |vocabulary| && vocabulary[k] == q;
    IncludesSelf(q);
    IncludesWithin("", q, " ", q);
    assert "" + q + " " == q + " ";
    IncludesWithin(" ", q, "", q);
    assert " " + q + "" == " " + q;
  }

  /** A blank after a word ends the split with an empty field. */
  lemma SplitWordThenBlank(q: string)
    requires NoWhitespace(q)
    ensures SplitWhitespace(q + " ") == [q, ""]
  {
    SplitWithoutWhitespace(q);
    assert SplitWhitespace("") == [""];
    SplitWhitespaceAtRun(q, " ", "");
    assert q + " " + "" == q + " ";
  }

  /** A blank before a word starts the split with an empty field. */
  lemma SplitBlankThenWord(q: string)
    requires NoWhitespace(q)
    ensures SplitWhitespace(" " + q) == ["", q]
  {
    SplitWithoutWhitespace(q);
    assert SplitWhitespace("") == [""];
    SplitWhitespaceAtRun("", " ", q);
    assert "" + " " + q == " " + q;
  }

  /** A class query drops its trigger word and keeps the empty token. */
  lemma EmptyTokenIsKept(q: string)
    requires q in ClassVocabulary
    ensures Filter([q, ""], Keeps(Class)) == [""]
    ensures Filter(["", q], Keeps(Class)) == [""]
  {
    assert "" !in ClassVocabulary && "" !in Days;
    assert [q, ""] == [q] + [""];
    FilterAppend([q], [""], Keeps(Class));
    assert ["", q] == [""] + [q];
    FilterAppend([""], [q], Keeps(Class));
  }

  /** "classes " is a class query whose only keyword is the empty token. */
  lemma ClassesThenBlank()
    ensures Analyze("classes ").queryType == Class && Analyze("classes ").keywords == [""]
  {
    assert ClassVocabulary[1] == "classes";
    LowercaseWord("classes");
    ClassWordThenBlank("classes");
    assert "classes" + " " == "classes ";
  }

  /** " classes" (a blank, then "classes") is a class query whose only keyword is the empty token. */
  lemma BlankThenClasses()
    ensures var q := " " + "classes";
      Analyze(q).queryType == Class && Analyze(q).keywords == [""]
  {
    assert ClassVocabulary[1] == "classes";
    LowercaseWord("classes");
    BlankThenClassWord("classes");
  }
}

=== FILE: execution.dfy ===
/**
 * Query execution: the analysed query becomes a filtered, ordered read of one
 * table, and the rows read become the spoken answer.
 *
 * The data store is not called. Its part is played by the inputs `tables` (the rows
 * of the four tables), `fetchFails` (the read reports an error) and `today` (the
 * date sent as the lower bound for events), and by the functions below that apply
 * the filters, the order and the limit the assistant asks the store for.
 */
module QueryExecution {

  import opened Wrappers
  import opened Text
  import opened Seqs
  import opened Records
  import opened QueryAnalysis
  import opened FaqMatch
  import opened Responses

  /** The rows of the four tables at the time of the request. */
  datatype Tables = Tables(
    classes: seq<ClassRecord>,
    events: seq<EventRecord>,
    departments: seq<DepartmentRecord>,
    faqs: seq<FaqRecord>)

  // ---------------------------------------------------------------------------
  // Answers that do not come from records
  // ---------------------------------------------------------------------------

  const ErrorMessage := "I encountered an error while processing your request. Please try again."
  const UnknownMessage :=
    "I'm not sure what you're asking. You can ask me about class schedules, upcoming events, department information, or general campus questions."
  const NoClassesMessage := "I couldn't find any classes matching your query."
  const NoEventsMessage := "I couldn't find any upcoming events matching your query."
  const NoDepartmentsMessage := "I couldn't find any departments matching your query."
  const NoFaqsMessage :=
    "I don't have information about that. Please try asking about classes, events, or departments."
  const NoFaqMatchMessage :=
    "I don't have information about that. You can ask me about class schedules, upcoming events, department information, or general campus questions."

  function NoClassesOnMessage(day: string): string {
    "I couldn't find any classes scheduled for " + day + "."
  }

  // ---------------------------------------------------------------------------
  // The reads the assistant asks for
  // ---------------------------------------------------------------------------

  /** `column.ilike.%keyword%`: the keyword occurs in the value, ignoring case. */
  predicate ILikeContains(value: string, keyword: string) {
    Includes(Lower(value), Lower(keyword))
  }

  /** `ilike(column, pattern)` with a pattern that has no wildcard: equal, ignoring case. */
  predicate ILikeEquals(value: string, pattern: string) {
    Lower(value) == Lower(pattern)
  }

  /** A read of `classes`: an optional weekday and an optional keyword, ordered by start time. */
  datatype ClassQuery = ClassQuery(dayOfWeek: Option<string>, keyword: Option<string>)

  /** A read of `events`: an optional keyword, dates from `fromDate` on, ordered by date, at most `limit` rows. */
  datatype EventQuery = EventQuery(keyword: Option<string>, fromDate: string, limit: nat)

  /** A read of `departments`: an optional keyword, in table order. */
  datatype DepartmentQuery = DepartmentQuery(keyword: Option<string>)

  /** A record matches the keyword filter of a class read. */
  predicate ClassHasKeyword(c: ClassRecord, keyword: string) {
    ILikeContains(c.subjectName, keyword) || ILikeContains(c.subjectCode, keyword)
    || ILikeContains(c.instructor, keyword) || ILikeContains(c.department, keyword)
  }

  predicate ClassMatches(q: ClassQuery, c: ClassRecord) {
    (q.dayOfWeek.Some? ==> ILikeEquals(c.dayOfWeek, q.dayOfWeek.value))
    && (q.keyword.Some? ==> ClassHasKeyword(c, q.keyword.value))
  }

  predicate EventMatches(q: EventQuery, e: EventRecord) {
    (q.keyword.Some? ==>
       ILikeContains(e.title, q.keyword.value) || ILikeContains(e.description, q.keyword.value)
       || ILikeContains(e.category, q.keyword.value))
    && LexLe(q.fromDate, e.eventDate)
  }

  /** A `null` description never matches a pattern. */
  predicate DepartmentMatches(q: DepartmentQuery, d: DepartmentRecord) {
    q.keyword.Some? ==>
      ILikeContains(d.name, q.keyword.value)
      || (d.description.Some? && ILikeContains(d.description.value, q.keyword.value))
  }

  function ClassFilter(q: ClassQuery): ClassRecord -> bool {
    c => ClassMatches(q, c)
  }

  function EventFilter(q: EventQuery): EventRecord -> bool {
    e => EventMatches(q, e)
  }

  function DepartmentFilter(q: DepartmentQuery): DepartmentRecord -> bool {
    d => DepartmentMatches(q, d)
  }

  function StartTime(c: ClassRecord): string {
    c.startTime
  }

  function EventDate(e: EventRecord): string {
    e.eventDate
  }

  function RunClassQuery(q: ClassQuery, table: seq<ClassRecord>): seq<ClassRecord> {
    SortBy(Filter(table, ClassFilter(q)), StartTime)
  }

  function RunEventQuery(q: EventQuery, table: seq<EventRecord>): seq<EventRecord> {
    var ordered := SortBy(Filter(table, EventFilter(q)), EventDate);
    ordered[..if |ordered| < q.limit then |ordered| else q.limit]
  }

  function RunDepartmentQuery(q: DepartmentQuery, table: seq<DepartmentRecord>): seq<DepartmentRecord> {
    Filter(table, DepartmentFilter(q))
  }

  /** The first keyword, if there is one: the only keyword used to filter. */
  function FirstKeyword(pq: ProcessedQuery): Option<string> {
    if |pq.keywords| > 0 then Some(pq.keywords[0]) else None
  }

  /** The read of `classes` for a query: the weekday is sent capitalized. */
  function ClassQueryFor(pq: ProcessedQuery): ClassQuery {
    ClassQuery(if Truthy(pq.day) then Some(Capitalize(pq.day.value)) else None, FirstKeyword(pq))
  }

  /** Upcoming events are read five at a time. */
  const EventLimit: nat := 5

  function EventQueryFor(pq: ProcessedQuery, today: string): EventQuery {
    EventQuery(FirstKeyword(pq), today, EventLimit)
  }

  function DepartmentQueryFor(pq: ProcessedQuery): DepartmentQuery {
    DepartmentQuery(FirstKeyword(pq))
  }

  function ClassRows(pq: ProcessedQuery, table: seq<ClassRecord>): seq<ClassRecord> {
    RunClassQuery(ClassQueryFor(pq), table)
  }

  function EventRows(pq: ProcessedQuery, table: seq<EventRecord>, today: string): seq<EventRecord> {
    RunEventQuery(EventQueryFor(pq, today), table)
  }

  function DepartmentRows(pq: ProcessedQuery, table: seq<DepartmentRecord>): seq<DepartmentRecord> {
    RunDepartmentQuery(DepartmentQueryFor(pq), table)
  }

  /** The stored answer of the best FAQ, or the broad fallback when no FAQ scores. */
  function FaqAnswer(keywords: seq<string>, faqs: seq<FaqRecord>): (r: string)
    ensures (forall j :: 0 <= j < |faqs| ==> Score(keywords, faqs[j]) == 0) ==> r == NoFaqMatchMessage
    ensures (exists j :: 0 <= j < |faqs| && Score(keywords, faqs[j]) > 0) ==>
      exists i :: 0 <= i < |faqs| && r == faqs[i].answer && Score(keywords, faqs[i]) > 0
        && (forall j :: 0 <= j < |faqs| ==> Score(keywords, faqs[j]) <= Score(keywords, faqs[i]))
        && (forall j :: 0 <= j < i ==> Score(keywords, faqs[j]) < Score(keywords, faqs[i]))
  {
    var scores := Scores(keywords, faqs);
    BestIndexIsFirstMaximal(scores);
    match Selected(faqs, BestIndex(scores))
    case Some(faq) =>
      var i := BestIndex(scores).value;
      assert faq == faqs[i] && Score(keywords, faqs[i]) == scores[i];
      faq.answer
    case None => NoFaqMatchMessage
  }

  // ---------------------------------------------------------------------------
  // Execution
  // ---------------------------------------------------------------------------

  /**
   * Answers an analysed query. Never fails: a read that reports an error yields the
   * fixed error sentence, and an `Unknown` query is answered without any read.
   */
  method ExecuteQuery(
    pq: ProcessedQuery, tables: Tables, fetchFails: bool, today: string, formatDate: string -> string)
    returns (answer: string)
    ensures pq.queryType == Unknown ==> answer == UnknownMessage
    ensures pq.queryType != Unknown && fetchFails ==> answer == ErrorMessage
    ensures pq.queryType == Class && !fetchFails ==>
      var rows := ClassRows(pq, tables.classes);
      answer == if rows == [] then (if Truthy(pq.day) then NoClassesOnMessage(pq.day.value) else NoClassesMessage)
                else FormatClassResponse(rows)
    ensures pq.queryType == Event && !fetchFails ==>
      var rows := EventRows(pq, tables.events, today);
      answer == if rows == [] then NoEventsMessage else FormatEventResponse(rows, formatDate)
    ensures pq.queryType == Department && !fetchFails ==>
      var rows := DepartmentRows(pq, tables.departments);
      answer == if rows == [] then NoDepartmentsMessage else FormatDepartmentResponse(rows)
    ensures pq.queryType == Faq && !fetchFails ==>
      answer == if tables.faqs == [] then NoFaqsMessage else FaqAnswer(pq.keywords, tables.faqs)
  {
    match pq.queryType
    case Class =>
      var query := ClassQuery(None, None);
      if Truthy(pq.day) {
        query := query.(dayOfWeek := Some(Capitalize(pq.day.value)));
      }
      if |pq.keywords| > 0 {
        query := query.(keyword := Some(pq.keywords[0]));
      }
      if fetchFails {
        return ErrorMessage;
      }
      var data := RunClassQuery(query, tables.classes);
      if |data| == 0 {
        return if Truthy(pq.day) then NoClassesOnMessage(pq.day.value) else NoClassesMessage;
      }
      answer := FormatClassResponse(data);

    case Event =>
      var query := EventQuery(None, today, EventLimit);
      if |pq.keywords| > 0 {
        query := query.(keyword := Some(pq.keywords[0]));
      }
      if fetchFails {
        return ErrorMessage;
      }
      var data := RunEventQuery(query, tables.events);
      if |data| == 0 {
        return NoEventsMessage;
      }
      answer := FormatEventResponse(data, formatDate);

    case Department =>
      var query := DepartmentQuery(None);
      if |pq.keywords| > 0 {
        query := query.(keyword := Some(pq.keywords[0]));
      }
      if fetchFails {
        return ErrorMessage;
      }
      var data := RunDepartmentQuery(query, tables.departments);
      if |data| == 0 {
        return NoDepartmentsMessage;
      }
      answer := FormatDepartmentResponse(data);

    case Faq =>
      if fetchFails {
        return ErrorMessage;
      }
      var data := tables.faqs;
      if |data| == 0 {
        return NoFaqsMessage;
      }
      var bestMatch := FindBestFaqMatch(pq.keywords, data);
      if bestMatch.Some? {
        return bestMatch.value.answer;
      }
      answer := NoFaqMatchMessage;

    case Unknown =>
      answer := UnknownMessage;
  }

  // ---------------------------------------------------------------------------
  // Properties of the reads
  // ---------------------------------------------------------------------------

  /**
   * The classes read for a query are exactly the classes held on the query's weekday
   * (ignoring case) that match its first keyword in one of four columns, each as often
   * as in the table, in ascending order of start time.
   */
  lemma ClassRowsAreMatchingClassesByStartTime(pq: ProcessedQuery, table: seq<ClassRecord>)
    ensures var rows := ClassRows(pq, table);
      SortedBy(rows, StartTime)
      && multiset(rows) == multiset(Filter(table, ClassFilter(ClassQueryFor(pq))))
      && forall c :: c in rows <==>
           c in table
           && (Truthy(pq.day) ==> Lower(c.dayOfWeek) == Lower(pq.day.value))
           && (|pq.keywords| > 0 ==> ClassHasKeyword(c, pq.keywords[0]))
  {
    var q := ClassQueryFor(pq);
    var matching := Filter(table, ClassFilter(q));
    SortByIsSortedPermutation(matching, StartTime);
    if Truthy(pq.day) {
      LowerCapitalize(pq.day.value);
    }
    forall c
      ensures c in ClassRows(pq, table) <==> c in matching
    {
      assert c in ClassRows(pq, table) <==> c in multiset(ClassRows(pq, table));
      assert c in matching <==> c in multiset(matching);
    }
  }

  /**
   * The events read for a query are each dated today or later and match the first
   * keyword, in ascending order of date; there are five of them, or all the matching
   * upcoming events when fewer match, so then every such event is read.
   */
  lemma EventRowsAreUpcomingMatches(pq: ProcessedQuery, table: seq<EventRecord>, today: string)
    ensures var rows := EventRows(pq, table, today);
      var matching := Filter(table, EventFilter(EventQueryFor(pq, today)));
      |rows| == (if |matching| < EventLimit then |matching| else EventLimit)
      && SortedBy(rows, EventDate)
      && (forall e :: e in rows ==>
            e in table && LexLe(today, e.eventDate) && EventMatches(EventQueryFor(pq, today), e))
      && (|matching| <= EventLimit ==>
            forall e :: e in table && EventMatches(EventQueryFor(pq, today), e) ==> e in rows)
  {
    EventRowsAreSortedMatches(pq, table, today);
    EventRowsCount(pq, table, today);
  }

  lemma EventRowsAreSortedMatches(pq: ProcessedQuery, table: seq<EventRecord>, today: string)
    ensures var rows := EventRows(pq, table, today);
      SortedBy(rows, EventDate)
      && (forall e :: e in rows ==>
            e in table && LexLe(today, e.eventDate) && EventMatches(EventQueryFor(pq, today), e))
  {
    var q := EventQueryFor(pq, today);
    var matching := Filter(table, EventFilter(q));
    var ordered := SortBy(matching, EventDate);
    SortByIsSortedPermutation(matching, EventDate);
    var k := if |ordered| < q.limit then |ordered| else q.limit;
    var rows := ordered[..k];
    assert rows == EventRows(pq, table, today);
    assert SortedBy(rows, EventDate) by {
      forall i | 0 < i < |rows|
        ensures LexLe(EventDate(rows[i - 1]), EventDate(rows[i]))
      {
        assert rows[i - 1] == ordered[i - 1] && rows[i] == ordered[i];
      }
    }
    forall e | e in rows
      ensures e in matching
    {
      assert e in ordered;
      assert e in multiset(ordered);
    }
  }

  lemma EventRowsCount(pq: ProcessedQuery, table: seq<EventRecord>, today: string)
    ensures var rows := EventRows(pq, table, today);
      var matching := Filter(table, EventFilter(EventQueryFor(pq, today)));
      |rows| == (if |matching| < EventLimit then |matching| else EventLimit)
      && (|matching| <= EventLimit ==>
            forall e :: e in table && EventMatches(EventQueryFor(pq, today), e) ==> e in rows)
  {
    var q := EventQueryFor(pq, today);
    var matching := Filter(table, EventFilter(q));
    var ordered := SortBy(matching, EventDate);
    SortByIsPermutation(matching, EventDate);
    if |matching| <= EventLimit {
      assert EventRows(pq, table, today) == ordered;
      forall e | e in table && EventMatches(q, e)
        ensures e in ordered
      {
        assert e in matching;
        assert e in multiset(ordered);
      }
    }
  }

  /**
   * The events read are the earliest matching ones: a matching upcoming event that is
   * left out is dated no earlier than any event read.
   */
  lemma EventRowsAreEarliest(pq: ProcessedQuery, table: seq<EventRecord>, today: string)
    ensures var rows := EventRows(pq, table, today);
      forall e :: e in table && EventMatches(EventQueryFor(pq, today), e) && e !in rows ==>
        forall i :: 0 <= i < |rows| ==> LexLe(rows[i].eventDate, e.eventDate)
  {
    var q := EventQueryFor(pq, today);
    var matching := Filter(table, EventFilter(q));
    var ordered := SortBy(matching, EventDate);
    SortByIsSortedPermutation(matching, EventDate);
    var k := if |ordered| < q.limit then |ordered| else q.limit;
    assert ordered[..k] == EventRows(pq, table, today);
    forall e | e in table && EventMatches(q, e) && e !in ordered[..k]
      ensures forall i :: 0 <= i < k ==> LexLe(ordered[i].eventDate, e.eventDate)
    {
      assert e in matching;
      assert e in multiset(ordered);
      SortedPrefixIsEarliest(ordered, EventDate, k, e);
    }
  }

  /**
   * The departments read for a query are, in table order, exactly those whose name or
   * (non-null) description contains the first keyword, ignoring case; all of them when
   * there is no keyword.
   */
  lemma DepartmentRowsMatchKeyword(pq: ProcessedQuery, table: seq<DepartmentRecord>)
    ensures |pq.keywords| == 0 ==> DepartmentRows(pq, table) == table
    ensures forall d :: d in DepartmentRows(pq, table) <==>
      d in table
      && (|pq.keywords| > 0 ==>
            ILikeContains(d.name, pq.keywords[0])
            || (d.description.Some? && ILikeContains(d.description.value, pq.keywords[0])))
  {
    if |pq.keywords| == 0 {
      FilterKeepsAll(table, DepartmentFilter(DepartmentQueryFor(pq)));
    }
  }

  /**
   * The empty question is an FAQ query whose only keyword is too short to score, so
   * it is answered with the broad fallback sentence.
   */
  lemma EmptyQueryGetsFallback(faqs: seq<FaqRecord>)
    ensures Analyze("").queryType == Faq
    ensures FaqAnswer(Analyze("").keywords, faqs) == NoFaqMatchMessage
  {
    EmptyQuery();
    forall j | 0 <= j < |faqs|
      ensures Score([""], faqs[j]) == 0
    {
      ShortKeywordsNeverScore([""], faqs[j]);
    }
  }

  /**
   * The error sentence differs from every sentence that reports missing data, so a
   * failed read is never mistaken for an empty one.
   */
  lemma ErrorIsDistinguishable(day: string)
    requires day in Days
    ensures ErrorMessage != UnknownMessage && ErrorMessage != NoClassesMessage
    ensures ErrorMessage != NoClassesOnMessage(day) && ErrorMessage != NoEventsMessage
    ensures ErrorMessage != NoDepartmentsMessage && ErrorMessage != NoFaqsMessage
    ensures ErrorMessage != NoFaqMatchMessage
  {
  }

  /** A class query naming a weekday on which no class is held reads no class. */
  lemma NoClassesOnDayReadsNothing(pq: ProcessedQuery, table: seq<ClassRecord>, d: string)
    requires pq.day == Some(d) && d != ""
    requires forall c :: c in table ==> Lower(c.dayOfWeek) != Lower(d)
    ensures ClassRows(pq, table) == []
  {
    LowerCapitalize(d);
    FilterKeepsNone(table, ClassFilter(ClassQueryFor(pq)));
  }

  /**
   * The answer to a class query that finds nothing on a named weekday names that
   * weekday, and differs from the answer for a query without a weekday.
   */
  lemma NoClassesOnMessageNamesTheDay(d: string)
    requires d in Days
    ensures Includes(NoClassesOnMessage(d), d) && NoClassesOnMessage(d) != NoClassesMessage
  {
    IncludesSelf(d);
    IncludesWithin("I couldn't find any classes scheduled for ", d, ".", d);
    assert |NoClassesMessage| == 48 && |NoClassesOnMessage(d)| >= 49;
  }
}

=== FILE: faq_match.dfy ===
/**
 * FAQ relevance ranking: every FAQ gets an integer score from the query keywords,
 * and the earliest FAQ with the highest positive score is the answer.
 */
module FaqMatch {

  import opened Wrappers
  import opened Text
  import opened Seqs
  import opened Records

  // ---------------------------------------------------------------------------
  // The score of one FAQ
  // ---------------------------------------------------------------------------

  /** Only keywords longer than two characters take part in scoring. */
  predicate Significant(keyword: string) {
    |keyword| > 2
  }

  /** One point: a significant keyword occurs in the lower-cased question-and-answer text. */
  predicate TextHit(faqText: string, keyword: string) {
    Significant(keyword) && Includes(faqText, Lower(keyword))
  }

  /** Two points: the lower-cased tag contains a significant keyword (not the other way round). */
  predicate TagHit(tag: string, keyword: string) {
    Significant(keyword) && Includes(Lower(tag), Lower(keyword))
  }

  /** How many of `keywords` are text hits. */
  function TextHits(faqText: string, keywords: seq<string>): nat {
    if keywords == [] then 0
    else
      TextHits(faqText, keywords[..|keywords| - 1])
      + (if TextHit(faqText, keywords[|keywords| - 1]) then 1 else 0)
  }

  /** How many of `keywords` the tag contains. */
  function TagHits(tag: string, keywords: seq<string>): nat {
    if keywords == [] then 0
    else
      TagHits(tag, keywords[..|keywords| - 1])
      + (if TagHit(tag, keywords[|keywords| - 1]) then 1 else 0)
  }

  /** Tag points over all tags: two per matching (tag, keyword) pair. */
  function TagPoints(tags: seq<string>, keywords: seq<string>): nat {
    if tags == [] then 0
    else TagPoints(tags[..|tags| - 1], keywords) + 2 * TagHits(tags[|tags| - 1], keywords)
  }

  /** The text searched for keywords: question and answer, joined by a space, lower-cased. */
  function FaqText(faq: FaqRecord): string {
    Lower(faq.question + " " + faq.answer)
  }

  /** The relevance of `faq` to `keywords`. */
  function Score(keywords: seq<string>, faq: FaqRecord): nat {
    TextHits(FaqText(faq), keywords) + TagPoints(faq.keywords, keywords)
  }

  /** Computes the score the way the assistant does: a pass over the keywords, then over tags and keywords. */
  method ScoreFaq(keywords: seq<string>, faq: FaqRecord) returns (score: nat)
    ensures score == Score(keywords, faq)
  {
    score := 0;
    var faqText := Lower(faq.question + " " + faq.answer);

    for k := 0 to |keywords|
      invariant score == TextHits(faqText, keywords[..k])
    {
      assert keywords[..k + 1][..k] == keywords[..k];
      if |keywords[k]| > 2 && Includes(faqText, Lower(keywords[k])) {
        score := score + 1;
      }
    }
    assert keywords[..|keywords|] == keywords;

    ghost var textPoints := score;
    for t := 0 to |faq.keywords|
      invariant score == textPoints + TagPoints(faq.keywords[..t], keywords)
    {
      assert faq.keywords[..t + 1][..t] == faq.keywords[..t];
      var faqKeyword := faq.keywords[t];
      ghost var before := score;
      for k := 0 to |keywords|
        invariant score == before + 2 * TagHits(faqKeyword, keywords[..k])
      {
        assert keywords[..k + 1][..k] == keywords[..k];
        if |keywords[k]| > 2 && Includes(Lower(faqKeyword), Lower(keywords[k])) {
          score := score + 2;
        }
      }
      assert keywords[..|keywords|] == keywords;
    }
    assert faq.keywords[..|faq.keywords|] == faq.keywords;
  }

  // ---------------------------------------------------------------------------
  // Properties of the score
  // ---------------------------------------------------------------------------

  lemma {:induction false} TextHitsOfShort(faqText: string, keywords: seq<string>)
    requires forall i :: 0 <= i < |keywords| ==> !Significant(keywords[i])
    ensures TextHits(faqText, keywords) == 0
  {
    if keywords != [] {
      TextHitsOfShort(faqText, keywords[..|keywords| - 1]);
    }
  }

  lemma {:induction false} TagHitsOfShort(tag: string, keywords: seq<string>)
    requires forall i :: 0 <= i < |keywords| ==> !Significant(keywords[i])
    ensures TagHits(tag, keywords) == 0
  {
    if keywords != [] {
      TagHitsOfShort(tag, keywords[..|keywords| - 1]);
    }
  }

  lemma {:induction false} TagPointsOfShort(tags: seq<string>, keywords: seq<string>)
    requires forall i :: 0 <= i < |keywords| ==> !Significant(keywords[i])
    ensures TagPoints(tags, keywords) == 0
  {
    if tags != [] {
      TagPointsOfShort(tags[..|tags| - 1], keywords);
      TagHitsOfShort(tags[|tags| - 1], keywords);
    }
  }

  /** Keywords of at most two characters, the empty token included, never score. */
  lemma ShortKeywordsNeverScore(keywords: seq<string>, faq: FaqRecord)
    requires forall i :: 0 <= i < |keywords| ==> |keywords[i]| <= 2
    ensures Score(keywords, faq) == 0
  {
    TextHitsOfShort(FaqText(faq), keywords);
    TagPointsOfShort(faq.keywords, keywords);
  }

  lemma {:induction false} TextHitsAppend(faqText: string, a: seq<string>, b: seq<string>)
    ensures TextHits(faqText, a + b) == TextHits(faqText, a) + TextHits(faqText, b)
    decreases |b|
  {
    if b == [] {
      assert a + b == a;
    } else {
      var init := b[..|b| - 1];
      TextHitsAppend(faqText, a, init);
      assert (a + b)[..|a + b| - 1] == a + init;
    }
  }

  lemma {:induction false} TagHitsAppend(tag: string, a: seq<string>, b: seq<string>)
    ensures TagHits(tag, a + b) == TagHits(tag, a) + TagHits(tag, b)
    decreases |b|
  {
    if b == [] {
      assert a + b == a;
    } else {
      var init := b[..|b| - 1];
      TagHitsAppend(tag, a, init);
      assert (a + b)[..|a + b| - 1] == a + init;
    }
  }

  lemma {:induction false} TagPointsWithout(tags: seq<string>, a: seq<string>, w: string, b: seq<string>)
    requires !Significant(w)
    ensures TagPoints(tags, a + [w] + b) == TagPoints(tags, a + b)
  {
    if tags != [] {
      var tag := tags[|tags| - 1];
      TagPointsWithout(tags[..|tags| - 1], a, w, b);
      TagHitsAppend(tag, a + [w], b);
      TagHitsAppend(tag, a, [w]);
      TagHitsAppend(tag, a, b);
      assert [w][..0] == [];
    }
  }

  /**
   * A keyword of at most two characters adds nothing wherever it stands among the
   * other keywords: removing it leaves every FAQ's score unchanged.
   */
  lemma ShortKeywordAddsNothing(a: seq<string>, w: string, b: seq<string>, faq: FaqRecord)
    requires |w| <= 2
    ensures Score(a + [w] + b, faq) == Score(a + b, faq)
  {
    TextHitsAppend(FaqText(faq), a + [w], b);
    TextHitsAppend(FaqText(faq), a, [w]);
    TextHitsAppend(FaqText(faq), a, b);
    assert [w][..0] == [];
    TagPointsWithout(faq.keywords, a, w, b);
  }

  lemma {:induction false} TextHitsBound(faqText: string, keywords: seq<string>)
    ensures TextHits(faqText, keywords) <= |keywords|
  {
    if keywords != [] {
      TextHitsBound(faqText, keywords[..|keywords| - 1]);
    }
  }

  lemma {:induction false} TagHitsBound(tag: string, keywords: seq<string>)
    ensures TagHits(tag, keywords) <= |keywords|
  {
    if keywords != [] {
      TagHitsBound(tag, keywords[..|keywords| - 1]);
    }
  }

  lemma {:induction false} TagPointsBound(tags: seq<string>, keywords: seq<string>)
    ensures TagPoints(tags, keywords) <= 2 * |tags| * |keywords|
  {
    if tags != [] {
      TagPointsBound(tags[..|tags| - 1], keywords);
      TagHitsBound(tags[|tags| - 1], keywords);
      assert 2 * (|tags| - 1) * |keywords| + 2 * |keywords| == 2 * |tags| * |keywords|;
    }
  }

  /** Each keyword earns at most one text point and two points per tag. */
  lemma ScoreBound(keywords: seq<string>, faq: FaqRecord)
    ensures Score(keywords, faq) <= |keywords| * (1 + 2 * |faq.keywords|)
  {
    TextHitsBound(FaqText(faq), keywords);
    TagPointsBound(faq.keywords, keywords);
    assert |keywords| * (1 + 2 * |faq.keywords|) == |keywords| + 2 * |faq.keywords| * |keywords|;
  }

  /**
   * A query "library hours" against an FAQ tagged "hours" whose text mentions
   * neither word scores two: nothing from the text, two from the tag.
   */
  lemma LibraryHoursExample(faq: FaqRecord)
    requires faq.keywords == ["hours"]
    requires !Includes(FaqText(faq), "library") && !Includes(FaqText(faq), "hours")
    ensures Score(["library", "hours"], faq) == 2
  {
    var keywords := ["library", "hours"];
    LibraryHoursText(FaqText(faq));
    LibraryHoursTag();
    var tags := faq.keywords;
    assert tags[..|tags| - 1] == [] && tags[|tags| - 1] == "hours";
    assert TagPoints(tags, keywords) == TagPoints([], keywords) + 2 * TagHits("hours", keywords);
  }

  lemma LibraryHoursLower()
    ensures Lower("library") == "library" && Lower("hours") == "hours"
  {
  }

  lemma LibraryHoursText(faqText: string)
    requires !Includes(faqText, "library") && !Includes(faqText, "hours")
    ensures TextHits(faqText, ["library", "hours"]) == 0
  {
    LibraryHoursLower();
    var keywords := ["library", "hours"];
    assert keywords[..1] == ["library"] && keywords[..1][..0] == [];
    assert !TextHit(faqText, keywords[0]) && !TextHit(faqText, keywords[1]);
    assert TextHits(faqText, keywords[..1]) == TextHits(faqText, []) + 0;
    assert TextHits(faqText, keywords) == TextHits(faqText, keywords[..1]) + 0;
  }

  lemma LibraryHoursTag()
    ensures TagHits("hours", ["library", "hours"]) == 1
  {
  }

  // ---------------------------------------------------------------------------
  // Choosing the best FAQ
  // ---------------------------------------------------------------------------

  /** The scores of all FAQs, in order. */
  function Scores(keywords: seq<string>, faqs: seq<FaqRecord>): (r: seq<nat>)
    ensures |r| == |faqs|
    ensures forall i :: 0 <= i < |faqs| ==> r[i] == Score(keywords, faqs[i])
  {
    seq(|faqs|, i requires 0 <= i < |faqs| => Score(keywords, faqs[i]))
  }

  /** The largest of the scores, or 0 when there are none. */
  function MaxScore(scores: seq<nat>): nat {
    if scores == [] then 0
    else
      var m := MaxScore(scores[..|scores| - 1]);
      if scores[|scores| - 1] > m then scores[|scores| - 1] else m
  }

  /** The index of the first occurrence of `v`. */
  function FirstIndexOf(scores: seq<nat>, v: nat): nat
    requires v in scores
  {
    if scores[0] == v then 0 else 1 + FirstIndexOf(scores[1..], v)
  }

  /** The selection rule: no match when the highest score is 0, else the first FAQ attaining it. */
  function BestIndex(scores: seq<nat>): Option<nat> {
    var m := MaxScore(scores);
    if m == 0 then None
    else
      MaxScoreAttained(scores);
      Some(FirstIndexOf(scores, m))
  }

  lemma {:induction false} MaxScoreIsUpperBound(scores: seq<nat>)
    ensures forall j :: 0 <= j < |scores| ==> scores[j] <= MaxScore(scores)
  {
    if scores != [] {
      var init := scores[..|scores| - 1];
      MaxScoreIsUpperBound(init);
      assert forall j :: 0 <= j < |init| ==> scores[j] == init[j];
    }
  }

  lemma {:induction false} MaxScoreAttained(scores: seq<nat>)
    ensures MaxScore(scores) == 0 || MaxScore(scores) in scores
  {
    if scores != [] {
      var init := scores[..|scores| - 1];
      MaxScoreAttained(init);
      assert MaxScore(init) in init ==> MaxScore(init) in scores;
    }
  }

  lemma {:induction false} FirstIndexOfIsFirst(scores: seq<nat>, v: nat)
    requires v in scores
    ensures FirstIndexOf(scores, v) < |scores| && scores[FirstIndexOf(scores, v)] == v
    ensures forall j :: 0 <= j < FirstIndexOf(scores, v) ==> scores[j] != v
  {
    if scores[0] != v {
      FirstIndexOfIsFirst(scores[1..], v);
    }
  }

  lemma {:induction false} FirstIndexOfPrefix(scores: seq<nat>, x: nat, v: nat)
    requires v in scores
    ensures v in scores + [x] && FirstIndexOf(scores + [x], v) == FirstIndexOf(scores, v)
  {
    var s := scores + [x];
    assert s[0] == scores[0];
    if scores[0] != v {
      assert s[1..] == scores[1..] + [x];
      FirstIndexOfPrefix(scores[1..], x, v);
    }
  }

  /**
   * The selection rule, stated without the scan: no match exactly when every score
   * is 0 (an empty list included); otherwise a positive score that no score exceeds,
   * and every earlier score is strictly lower, so a later equal score never wins.
   */
  lemma BestIndexIsFirstMaximal(scores: seq<nat>)
    ensures BestIndex(scores) == None <==> forall j :: 0 <= j < |scores| ==> scores[j] == 0
    ensures BestIndex(scores).Some? ==>
      var i := BestIndex(scores).value;
      i < |scores| && scores[i] > 0
      && (forall j :: 0 <= j < |scores| ==> scores[j] <= scores[i])
      && (forall j :: 0 <= j < i ==> scores[j] < scores[i])
  {
    MaxScoreIsUpperBound(scores);
    MaxScoreAttained(scores);
    var m := MaxScore(scores);
    if m != 0 {
      FirstIndexOfIsFirst(scores, m);
    }
  }

  /** Appending one score: the new maximum, and the new choice only when the score beats the old maximum. */
  lemma BestIndexStep(prefix: seq<nat>, score: nat)
    ensures MaxScore(prefix + [score]) == if score > MaxScore(prefix) then score else MaxScore(prefix)
    ensures BestIndex(prefix + [score]) ==
      if score > MaxScore(prefix) then Some(|prefix|) else BestIndex(prefix)
  {
    var s := prefix + [score];
    assert s[..|s| - 1] == prefix;
    MaxScoreIsUpperBound(prefix);
    MaxScoreAttained(prefix);
    if score > MaxScore(prefix) {
      assert score !in prefix;
      FirstIndexOfIsFirst(s, score);
    } else if MaxScore(prefix) > 0 {
      FirstIndexOfPrefix(prefix, score, MaxScore(prefix));
    }
  }

  /** `faqs[i]` for the selected index, if any. */
  function Selected(faqs: seq<FaqRecord>, choice: Option<nat>): Option<FaqRecord> {
    match choice
    case Some(i) => if i < |faqs| then Some(faqs[i]) else None
    case None => None
  }

  /** The assistant's scan: a later FAQ replaces the best so far only with a strictly higher score. */
  method FindBestFaqMatch(keywords: seq<string>, faqs: seq<FaqRecord>) returns (best: Option<FaqRecord>)
    ensures best == Selected(faqs, BestIndex(Scores(keywords, faqs)))
    ensures best == None <==> forall j :: 0 <= j < |faqs| ==> Score(keywords, faqs[j]) == 0
  {
    ghost var scores := Scores(keywords, faqs);
    var bestMatch: Option<FaqRecord> := None;
    var highestScore := 0;

    for i := 0 to |faqs|
      invariant highestScore == MaxScore(scores[..i])
      invariant bestMatch == Selected(faqs, BestIndex(scores[..i]))
    {
      var score := ScoreFaq(keywords, faqs[i]);
      assert scores[..i + 1] == scores[..i] + [score];
      BestIndexStep(scores[..i], score);
      if score > highestScore {
        highestScore := score;
        bestMatch := Some(faqs[i]);
      }
    }
    assert scores[..|faqs|] == scores;
    BestIndexIsFirstMaximal(scores);
    best := if highestScore > 0 then bestMatch else None;
  }
}

=== FILE: records.dfy ===
/**
 * The rows of the four tables the assistant reads, one datatype per table.
 * Columns that the table allows to be `null` are `Option`s.
 */
module Records {

  import opened Wrappers

  /** A row of `classes`: one weekly meeting of a course. Times are "HH:MM" or "HH:MM:SS", 24-hour. */
  datatype ClassRecord = ClassRecord(
    id: string,
    subjectName: string,
    subjectCode: string,
    instructor: string,
    dayOfWeek: string,
    startTime: string,
    endTime: string,
    roomNumber: string,
    department: string,
    semester: string,
    createdAt: string)

  /** A row of `events`; `eventDate` is an ISO date "YYYY-MM-DD". */
  datatype EventRecord = EventRecord(
    id: string,
    title: string,
    description: string,
    eventDate: string,
    startTime: Option<string>,
    endTime: Option<string>,
    location: string,
    category: string,
    organizer: Option<string>,
    createdAt: string)

  /** A row of `departments`. */
  datatype DepartmentRecord = DepartmentRecord(
    id: string,
    name: string,
    head: string,
    location: string,
    contactEmail: Option<string>,
    contactPhone: Option<string>,
    description: Option<string>,
    createdAt: string)

  /** A row of `faqs`; `keywords` are the tags an editor attached to the entry. */
  datatype FaqRecord = FaqRecord(
    id: string,
    question: string,
    answer: string,
    category: string,
    keywords: seq<string>,
    createdAt: string)
}

=== FILE: responses.dfy ===
/**
 * Answer synthesis: the spoken sentence for a list of classes, events or
 * departments, and the 24-hour to 12-hour clock conversion used in it.
 * A single record gets a detailed sentence; several get a count and a list.
 */
module Responses {

  import opened Wrappers
  import opened Text
  import opened Records

  // ---------------------------------------------------------------------------
  // Clock times
  // ---------------------------------------------------------------------------

  /** The hour shown on a 12-hour clock. */
  function DisplayHour(hour: int): (d: int)
    ensures 0 <= hour <= 23 ==> 1 <= d <= 12 && d % 12 == hour % 12
  {
    if hour > 12 then hour - 12 else if hour == 0 then 12 else hour
  }

  function Meridiem(hour: int): (m: string)
    ensures m == "PM" <==> hour >= 12
  {
    if hour >= 12 then "PM" else "AM"
  }

  /**
   * A 24-hour "HH:MM" (or "HH:MM:SS") time on a 12-hour clock. The text before the
   * first colon is read with `parseInt`; the text between the first and second colon
   * is copied as the minutes ("undefined" when there is no colon, "NaN" for an
   * unreadable hour).
   */
  function FormatTime(time: string): (r: string)
    ensures EndsWith(r, " AM") || EndsWith(r, " PM")
    ensures ':' !in time ==> EndsWith(r, ":undefined AM") || EndsWith(r, ":undefined PM")
  {
    var fields := SplitOn(time, ':');
    var minutes := if |fields| > 1 then fields[1] else "undefined";
    var hour := ParseInt(fields[0]);
    var hourText := if hour.None? then "NaN" else IntToString(DisplayHour(hour.value));
    var meridiem := if hour.None? then "AM" else Meridiem(hour.value);
    var r := hourText + ":" + minutes + " " + meridiem;
    TimeEndsWith(hourText, minutes, meridiem);
    MeridiemSuffix(r, meridiem);
    if ':' in time then r
    else
      SplitOnNoSeparator(time, ':');
      UndefinedMinutesSuffix(r, meridiem);
      r
  }

  lemma MeridiemSuffix(r: string, meridiem: string)
    requires meridiem == "AM" || meridiem == "PM"
    requires EndsWith(r, " " + meridiem)
    ensures EndsWith(r, " AM") || EndsWith(r, " PM")
  {
    assert " " + meridiem == " AM" || " " + meridiem == " PM";
  }

  lemma UndefinedMinutesSuffix(r: string, meridiem: string)
    requires meridiem == "AM" || meridiem == "PM"
    requires EndsWith(r, ":" + "undefined" + " " + meridiem)
    ensures EndsWith(r, ":undefined AM") || EndsWith(r, ":undefined PM")
  {
    assert ":" + "undefined" + " " + meridiem == ":undefined AM" || ":" + "undefined" + " " + meridiem == ":undefined PM";
  }

  /** A formatted time closes with the meridiem, after the minutes. */
  lemma TimeEndsWith(hourText: string, minutes: string, meridiem: string)
    ensures EndsWith(hourText + ":" + minutes + " " + meridiem, " " + meridiem)
    ensures EndsWith(hourText + ":" + minutes + " " + meridiem, ":" + minutes + " " + meridiem)
  {
    AppendAssociative(hourText + ":" + minutes, " ", meridiem);
    EndsWithAppend(hourText + ":" + minutes, " " + meridiem);
    AppendAssociative(hourText, ":" + minutes + " ", meridiem);
    AppendAssociative(hourText, ":" + minutes, " ");
    AppendAssociative(hourText, ":", minutes);
    EndsWithAppend(hourText, ":" + minutes + " " + meridiem);
  }

  /**
   * For an hour from 0 to 23 written in digits, the result shows the hour on the
   * 12-hour clock (0 and 12 become 12, 13 to 23 lose 12), copies the minutes
   * unchanged, drops any seconds, and says AM before noon and PM from noon on.
   */
  lemma FormatTimeOfClockTime(hh: string, mm: string, seconds: string)
    requires |hh| >= 1 && AllDigits(hh) && DigitsValue(hh) <= 23
    requires ':' !in mm
    requires seconds == [] || seconds[0] == ':'
    ensures var hour := DigitsValue(hh);
      FormatTime(hh + ":" + mm + seconds)
        == NatToString(DisplayHour(hour)) + ":" + mm + " " + (if hour < 12 then "AM" else "PM")
  {
    assert ':' !in hh by {
      forall i | 0 <= i < |hh|
        ensures hh[i] != ':'
      {
        assert IsDigit(hh[i]);
      }
    }
    SplitOnTwoFields(hh, ':', mm, seconds);
    assert hh + ":" + mm + seconds == hh + [':'] + mm + seconds;
    ParseIntOfDigits(hh, []);
    assert hh + [] == hh;
  }

  // ---------------------------------------------------------------------------
  // Answers about several records
  // ---------------------------------------------------------------------------

  /** "I found <n> <what><items, comma-separated>.": the shape of an answer about several records. */
  function Tally(n: nat, what: string, items: seq<string>): string {
    "I found " + NatToString(n) + " " + what + Join(items, ", ") + "."
  }

  /** An answer about several records closes with a period. */
  lemma TallyEndsWithPeriod(n: nat, what: string, items: seq<string>)
    ensures EndsWith(Tally(n, what, items), ".")
  {
    EndsWithAppend("I found " + NatToString(n) + " " + what + Join(items, ", "), ".");
  }

  /** Reading the number after "I found " gives back the count. */
  lemma TallyStatesCount(n: nat, what: string, items: seq<string>)
    ensures var r := Tally(n, what, items);
      |r| > 8 && r[..8] == "I found " && ParseInt(r[8..]) == Some(n)
  {
    var rest := " " + what + Join(items, ", ") + ".";
    var r := Tally(n, what, items);
    assert r == "I found " + (NatToString(n) + rest);
    assert r[8..] == NatToString(n) + rest;
    assert rest[0] == ' ';
    ParseIntOfNat(n, rest);
  }

  /** Every item occurs in the answer. */
  lemma TallyListsEvery(n: nat, what: string, items: seq<string>, k: nat)
    requires k < |items|
    ensures Includes(Tally(n, what, items), items[k])
  {
    JoinIncludesItem(items, ", ", k);
    IncludesWithin("I found " + NatToString(n) + " " + what, Join(items, ", "), ".", items[k]);
  }

  // ---------------------------------------------------------------------------
  // Classes
  // ---------------------------------------------------------------------------

  function ClassDetailParts(c: ClassRecord): seq<string> {
    [c.subjectName, " (", c.subjectCode, ") is scheduled on ", c.dayOfWeek,
     " from ", FormatTime(c.startTime), " to ", FormatTime(c.endTime),
     " in room ", c.roomNumber, ". The instructor is ", c.instructor, "."]
  }

  function ClassDetail(c: ClassRecord): string {
    Concat(ClassDetailParts(c))
  }

  function ClassSummary(c: ClassRecord): string {
    Concat([c.subjectName, " at ", FormatTime(c.startTime), " in room ", c.roomNumber])
  }

  /** At most five classes are listed. */
  const ClassListCap: nat := 5

  function Listed(n: nat): nat {
    if n < ClassListCap then n else ClassListCap
  }

  function ClassSummaries(classes: seq<ClassRecord>): (r: seq<string>)
    ensures |r| == |classes|
    ensures forall i :: 0 <= i < |classes| ==> r[i] == ClassSummary(classes[i])
  {
    seq(|classes|, i requires 0 <= i < |classes| => ClassSummary(classes[i]))
  }

  /** The answer for the classes found. */
  function FormatClassResponse(classes: seq<ClassRecord>): (r: string)
    ensures EndsWith(r, ".")
  {
    if |classes| == 1 then
      ConcatEndsWithLast(ClassDetailParts(classes[0]));
      ClassDetail(classes[0])
    else
      var items := ClassSummaries(classes[..Listed(|classes|)]);
      TallyEndsWithPeriod(|classes|, "classes. Here are the details: ", items);
      Tally(|classes|, "classes. Here are the details: ", items)
  }

  /** One class: the sentence names its subject, code, day, start and end times, room and instructor. */
  lemma SingleClassSentence(c: ClassRecord)
    ensures var r := FormatClassResponse([c]);
      Includes(r, c.subjectName) && Includes(r, c.subjectCode) && Includes(r, c.dayOfWeek)
      && Includes(r, FormatTime(c.startTime)) && Includes(r, FormatTime(c.endTime))
      && Includes(r, c.roomNumber) && Includes(r, c.instructor)
  {
    var parts := [c.subjectName, " (", c.subjectCode, ") is scheduled on ", c.dayOfWeek,
                  " from ", FormatTime(c.startTime), " to ", FormatTime(c.endTime),
                  " in room ", c.roomNumber, ". The instructor is ", c.instructor, "."];
    ConcatIncludesPart(parts, 0);
    ConcatIncludesPart(parts, 2);
    ConcatIncludesPart(parts, 4);
    ConcatIncludesPart(parts, 6);
    ConcatIncludesPart(parts, 8);
    ConcatIncludesPart(parts, 10);
    ConcatIncludesPart(parts, 12);
  }

  /** Several classes (or none): the answer opens with the true number of classes, not the number listed. */
  lemma ClassResponseStatesCount(classes: seq<ClassRecord>)
    requires |classes| != 1
    ensures var r := FormatClassResponse(classes);
      |r| > 8 && r[..8] == "I found " && ParseInt(r[8..]) == Some(|classes|)
  {
    TallyStatesCount(|classes|, "classes. Here are the details: ", ClassSummaries(classes[..Listed(|classes|)]));
  }

  /** Several classes: each of the first five is listed. */
  lemma ClassResponseListsFirstFive(classes: seq<ClassRecord>, k: nat)
    requires |classes| != 1 && k < |classes| && k < ClassListCap
    ensures Includes(FormatClassResponse(classes), ClassSummary(classes[k]))
  {
    TallyListsEvery(|classes|, "classes. Here are the details: ", ClassSummaries(classes[..Listed(|classes|)]), k);
  }

  /** Classes after the fifth never change the answer, only the count does. */
  lemma ClassResponseIgnoresBeyondFive(a: seq<ClassRecord>, b: seq<ClassRecord>)
    requires |a| == |b| && a[..Listed(|a|)] == b[..Listed(|b|)]
    requires |a| != 1
    ensures FormatClassResponse(a) == FormatClassResponse(b)
  {
  }

  // ---------------------------------------------------------------------------
  // Events
  // ---------------------------------------------------------------------------

  /** `formatDate` renders an ISO date as a long date such as "March 5, 2025". */
  function EventDetailParts(e: EventRecord, formatDate: string -> string): seq<string> {
    [e.title, " is scheduled on ", formatDate(e.eventDate), " at ", e.location, ". ", e.description]
  }

  function EventDetail(e: EventRecord, formatDate: string -> string): string {
    Concat(EventDetailParts(e, formatDate))
  }

  function EventSummary(e: EventRecord, formatDate: string -> string): string {
    Concat([e.title, " on ", formatDate(e.eventDate), " at ", e.location])
  }

  function EventSummaries(events: seq<EventRecord>, formatDate: string -> string): (r: seq<string>)
    ensures |r| == |events|
    ensures forall i :: 0 <= i < |events| ==> r[i] == EventSummary(events[i], formatDate)
  {
    seq(|events|, i requires 0 <= i < |events| => EventSummary(events[i], formatDate))
  }

  /** The answer for the upcoming events found. */
  function FormatEventResponse(events: seq<EventRecord>, formatDate: string -> string): (r: string)
    ensures |events| == 1 ==> EndsWith(r, events[0].description)
    ensures |events| != 1 ==> EndsWith(r, ".")
  {
    if |events| == 1 then
      ConcatEndsWithLast(EventDetailParts(events[0], formatDate));
      EventDetail(events[0], formatDate)
    else
      var items := EventSummaries(events, formatDate);
      TallyEndsWithPeriod(|events|, "upcoming events: ", items);
      Tally(|events|, "upcoming events: ", items)
  }

  /** One event: the sentence names its title, date, location and description. */
  lemma SingleEventSentence(e: EventRecord, formatDate: string -> string)
    ensures var r := FormatEventResponse([e], formatDate);
      Includes(r, e.title) && Includes(r, formatDate(e.eventDate))
      && Includes(r, e.location) && Includes(r, e.description)
  {
    var parts := [e.title, " is scheduled on ", formatDate(e.eventDate), " at ", e.location, ". ", e.description];
    ConcatIncludesPart(parts, 0);
    ConcatIncludesPart(parts, 2);
    ConcatIncludesPart(parts, 4);
    ConcatIncludesPart(parts, 6);
  }

  /** Several events: the answer opens with their number. */
  lemma EventResponseStatesCount(events: seq<EventRecord>, formatDate: string -> string)
    requires |events| != 1
    ensures var r := FormatEventResponse(events, formatDate);
      |r| > 8 && r[..8] == "I found " && ParseInt(r[8..]) == Some(|events|)
  {
    TallyStatesCount(|events|, "upcoming events: ", EventSummaries(events, formatDate));
  }

  /** Several events: every one of them is listed. */
  lemma EventResponseListsEvery(events: seq<EventRecord>, formatDate: string -> string, k: nat)
    requires |events| != 1 && k < |events|
    ensures Includes(FormatEventResponse(events, formatDate), EventSummary(events[k], formatDate))
  {
    TallyListsEvery(|events|, "upcoming events: ", EventSummaries(events, formatDate), k);
  }

  // ---------------------------------------------------------------------------
  // Departments
  // ---------------------------------------------------------------------------

  /** JavaScript truthiness of a nullable string: present and not empty. */
  predicate Truthy(s: Option<string>) {
    s.Some? && s.value != ""
  }

  function DepartmentSentenceParts(d: DepartmentRecord): seq<string> {
    ["The ", d.name, " department is located at ", d.location,
     ". The department head is ", d.head, "."]
  }

  function DepartmentSentence(d: DepartmentRecord): string {
    Concat(DepartmentSentenceParts(d))
  }

  function DepartmentSummary(d: DepartmentRecord): string {
    Concat([d.name, " located at ", d.location])
  }

  function DepartmentSummaries(departments: seq<DepartmentRecord>): (r: seq<string>)
    ensures |r| == |departments|
    ensures forall i :: 0 <= i < |departments| ==> r[i] == DepartmentSummary(departments[i])
  {
    seq(|departments|, i requires 0 <= i < |departments| => DepartmentSummary(departments[i]))
  }

  /** The contact clause, present only when the e-mail is set. */
  function EmailClause(d: DepartmentRecord): string {
    if Truthy(d.contactEmail) then " You can reach them at " + d.contactEmail.value + "." else ""
  }

  /** The answer for the departments found. */
  function FormatDepartmentResponse(departments: seq<DepartmentRecord>): (r: string)
    ensures EndsWith(r, ".")
  {
    if |departments| == 1 then
      var d := departments[0];
      ConcatEndsWithLast(DepartmentSentenceParts(d));
      DepartmentAnswerEndsWithPeriod(d);
      DepartmentSentence(d) + EmailClause(d)
    else
      var items := DepartmentSummaries(departments);
      TallyEndsWithPeriod(|departments|, "departments: ", items);
      Tally(|departments|, "departments: ", items)
  }

  /** The e-mail clause, when present, closes with its own period. */
  lemma DepartmentAnswerEndsWithPeriod(d: DepartmentRecord)
    requires EndsWith(DepartmentSentence(d), ".")
    ensures EndsWith(DepartmentSentence(d) + EmailClause(d), ".")
  {
    if Truthy(d.contactEmail) {
      var clause := " You can reach them at " + d.contactEmail.value;
      assert EmailClause(d) == clause + ".";
      AppendAssociative(DepartmentSentence(d), clause, ".");
      EndsWithAppend(DepartmentSentence(d) + clause, ".");
    } else {
      assert DepartmentSentence(d) + EmailClause(d) == DepartmentSentence(d);
    }
  }

  /**
   * One department: the answer starts with the sentence naming its location and head,
   * and continues (with the contact e-mail) exactly when the e-mail is a non-empty string.
   */
  lemma DepartmentEmailClause(d: DepartmentRecord)
    ensures var r := FormatDepartmentResponse([d]);
      var base := DepartmentSentence(d);
      |r| >= |base| && r[..|base|] == base
      && (|r| > |base| <==> Truthy(d.contactEmail))
      && (Truthy(d.contactEmail) ==> Includes(r, d.contactEmail.value))
  {
    var base := DepartmentSentence(d);
    if Truthy(d.contactEmail) {
      var e := d.contactEmail.value;
      IncludesSelf(e);
      IncludesWithin(base + " You can reach them at ", e, ".", e);
      assert base + (" You can reach them at " + e + ".") == base + " You can reach them at " + e + ".";
    } else {
      assert base + "" == base;
    }
  }

  /** One department: the sentence names the department, its location and its head. */
  lemma SingleDepartmentSentence(d: DepartmentRecord)
    ensures var r := FormatDepartmentResponse([d]);
      Includes(r, d.name) && Includes(r, d.location) && Includes(r, d.head)
  {
    var parts := ["The ", d.name, " department is located at ", d.location,
                  ". The department head is ", d.head, "."];
    var base := Concat(parts);
    assert FormatDepartmentResponse([d]) == "" + base + EmailClause(d);
    ConcatIncludesPart(parts, 1);
    ConcatIncludesPart(parts, 3);
    ConcatIncludesPart(parts, 5);
    IncludesWithin("", base, EmailClause(d), d.name);
    IncludesWithin("", base, EmailClause(d), d.location);
    IncludesWithin("", base, EmailClause(d), d.head);
  }

  /** Several departments: the answer opens with their number. */
  lemma DepartmentResponseStatesCount(departments: seq<DepartmentRecord>)
    requires |departments| != 1
    ensures var r := FormatDepartmentResponse(departments);
      |r| > 8 && r[..8] == "I found " && ParseInt(r[8..]) == Some(|departments|)
  {
    TallyStatesCount(|departments|, "departments: ", DepartmentSummaries(departments));
  }

  /** Several departments: every one of them is listed. */
  lemma DepartmentResponseListsEvery(departments: seq<DepartmentRecord>, k: nat)
    requires |departments| != 1 && k < |departments|
    ensures Includes(FormatDepartmentResponse(departments), DepartmentSummary(departments[k]))
  {
    TallyListsEvery(|departments|, "departments: ", DepartmentSummaries(departments), k);
  }
}

=== FILE: seqs.dfy ===
/**
 * Array operations the query processor uses or delegates to the data store:
 * `filter`, and ordering rows ascending by a text column.
 */
module Seqs {

  import opened Text

  /** `s.filter(p)`: the elements satisfying `p`, in their original order. */
  function Filter<T(!new)>(s: seq<T>, p: T -> bool): (r: seq<T>)
    ensures |r| <= |s|
    ensures forall x :: x in r <==> x in s && p(x)
  {
    if s == [] then []
    else (if p(s[0]) then [s[0]] else []) + Filter(s[1..], p)
  }

  /** Filtering distributes over concatenation, so it keeps the relative order of what it keeps. */
  lemma {:induction false} FilterAppend<T(!new)>(a: seq<T>, b: seq<T>, p: T -> bool)
    ensures Filter(a + b, p) == Filter(a, p) + Filter(b, p)
  {
    if a == [] {
      assert a + b == b;
    } else {
      assert (a + b)[0] == a[0] && (a + b)[1..] == a[1..] + b;
      FilterAppend(a[1..], b, p);
    }
  }

  /** A filter that keeps every element is the identity. */
  lemma {:induction false} FilterKeepsAll<T(!new)>(s: seq<T>, p: T -> bool)
    requires forall i :: 0 <= i < |s| ==> p(s[i])
    ensures Filter(s, p) == s
  {
    if s != [] {
      FilterKeepsAll(s[1..], p);
    }
  }

  /** A filter that keeps no element yields the empty sequence. */
  lemma {:induction false} FilterKeepsNone<T(!new)>(s: seq<T>, p: T -> bool)
    requires forall i :: 0 <= i < |s| ==> !p(s[i])
    ensures Filter(s, p) == []
  {
    if s != [] {
      FilterKeepsNone(s[1..], p);
    }
  }

  /** The elements are in ascending order of `key`. */
  ghost predicate SortedBy<T>(s: seq<T>, key: T -> string) {
    forall i :: 0 < i < |s| ==> LexLe(key(s[i - 1]), key(s[i]))
  }

  /** Inserts `x` before the first element whose key is not below its own. */
  function InsertBy<T>(x: T, s: seq<T>, key: T -> string): seq<T> {
    if s == [] then [x]
    else if LexLe(key(x), key(s[0])) then [x] + s
    else [s[0]] + InsertBy(x, s[1..], key)
  }

  /** Orders `s` ascending by `key`; rows with equal keys keep their relative order. */
  function SortBy<T>(s: seq<T>, key: T -> string): seq<T> {
    if s == [] then [] else InsertBy(s[0], SortBy(s[1..], key), key)
  }

  /** Inserting adds exactly `x`, and the first element is `x` or the old first element. */
  lemma {:induction false} InsertByAddsOne<T>(x: T, s: seq<T>, key: T -> string)
    ensures multiset(InsertBy(x, s, key)) == multiset(s) + multiset{x}
    ensures |InsertBy(x, s, key)| == |s| + 1
    ensures InsertBy(x, s, key)[0] == x || (s != [] && InsertBy(x, s, key)[0] == s[0])
  {
    if s != [] && !LexLe(key(x), key(s[0])) {
      InsertByAddsOne(x, s[1..], key);
      assert s == [s[0]] + s[1..];
    }
  }

  /** Inserting into an ascending sequence keeps it ascending. */
  lemma {:induction false} InsertByKeepsOrder<T>(x: T, s: seq<T>, key: T -> string)
    requires SortedBy(s, key)
    ensures SortedBy(InsertBy(x, s, key), key)
  {
    if s != [] && !LexLe(key(x), key(s[0])) {
      var rest := InsertBy(x, s[1..], key);
      assert SortedBy(s[1..], key) by {
        forall i | 0 < i < |s[1..]|
          ensures LexLe(key(s[1..][i - 1]), key(s[1..][i]))
        {
          assert s[1..][i - 1] == s[i] && s[1..][i] == s[i + 1];
        }
      }
      InsertByKeepsOrder(x, s[1..], key);
      InsertByAddsOne(x, s[1..], key);
      LexLeTotal(key(x), key(s[0]));
      var r := [s[0]] + rest;
      assert LexLe(key(r[0]), key(r[1])) by {
        if rest[0] != x {
          assert rest[0] == s[1];
        }
      }
      forall i | 1 < i < |r|
        ensures LexLe(key(r[i - 1]), key(r[i]))
      {
        assert r[i - 1] == rest[i - 2] && r[i] == rest[i - 1];
      }
    }
  }

  lemma {:induction false} SortByIsPermutation<T>(s: seq<T>, key: T -> string)
    ensures multiset(SortBy(s, key)) == multiset(s)
    ensures |SortBy(s, key)| == |s|
  {
    if s != [] {
      SortByIsPermutation(s[1..], key);
      InsertByAddsOne(s[0], SortBy(s[1..], key), key);
      assert s == [s[0]] + s[1..];
    }
  }

  lemma {:induction false} SortByIsSorted<T>(s: seq<T>, key: T -> string)
    ensures SortedBy(SortBy(s, key), key)
  {
    if s != [] {
      SortByIsSorted(s[1..], key);
      InsertByKeepsOrder(s[0], SortBy(s[1..], key), key);
    }
  }

  /** Sorting yields an ascending permutation of its input. */
  lemma SortByIsSortedPermutation<T>(s: seq<T>, key: T -> string)
    ensures SortedBy(SortBy(s, key), key)
    ensures multiset(SortBy(s, key)) == multiset(s)
    ensures |SortBy(s, key)| == |s|
  {
    SortByIsSorted(s, key);
    SortByIsPermutation(s, key);
  }

  /** Ascending adjacent pairs give ascending pairs at any distance. */
  lemma {:induction false} SortedByPairwise<T>(s: seq<T>, key: T -> string, i: nat, j: nat)
    requires SortedBy(s, key) && i <= j < |s|
    ensures LexLe(key(s[i]), key(s[j]))
    decreases j - i
  {
    if i == j {
      LexLeTotal(key(s[i]), key(s[i]));
    } else {
      SortedByPairwise(s, key, i + 1, j);
      LexLeTransitive(key(s[i]), key(s[i + 1]), key(s[j]));
    }
  }

  /** In an ascending sequence, an element outside the first `k` is no lower than any of them. */
  lemma SortedPrefixIsEarliest<T>(s: seq<T>, key: T -> string, k: nat, x: T)
    requires SortedBy(s, key) && k <= |s|
    requires x in s && x !in s[..k]
    ensures forall i :: 0 <= i < k ==> LexLe(key(s[i]), key(x))
  {
    assert s == s[..k] + s[k..];
    var later := s[k..];
    assert x in later;
    var m :| 0 <= m < |later| && later[m] == x;
    forall i | 0 <= i < k
      ensures LexLe(key(s[i]), key(x))
    {
      SortedByPairwise(s, key, i, k + m);
    }
  }
}

=== FILE: text.dfy ===
/**
 * The JavaScript string operations the query processor relies on, over `seq<char>`:
 * `toLowerCase`, `includes`, `split(/\s+/)`, `split(':')`, `join`, `parseInt`,
 * number-to-text conversion in template literals, and the ascending order the
 * data store uses for zero-padded times and ISO dates.
 */
module Text {

  import opened Wrappers

  // ---------------------------------------------------------------------------
  // Characters
  // ---------------------------------------------------------------------------

  /** The regular-expression class `\s`: ECMAScript white space and line terminators. */
  predicate IsWhitespace(c: char) {
    var n := c as int;
    (9 <= n <= 13) || n == 0x20 || n == 0xA0 || n == 0x1680 || (0x2000 <= n <= 0x200A)
    || n == 0x2028 || n == 0x2029 || n == 0x202F || n == 0x205F || n == 0x3000 || n == 0xFEFF
  }

  predicate IsDigit(c: char) {
    '0' <= c <= '9'
  }

  predicate AllDigits(s: string) {
    forall i :: 0 <= i < |s| ==> IsDigit(s[i])
  }

  predicate NoWhitespace(s: string) {
    forall i :: 0 <= i < |s| ==> !IsWhitespace(s[i])
  }

  function LowerChar(c: char): char {
    if 'A' <= c <= 'Z' then (c as int + 32) as char else c
  }

  function UpperChar(c: char): char {
    if 'a' <= c <= 'z' then (c as int - 32) as char else c
  }

  /** `s.toLowerCase()`, restricted to the ASCII letters. */
  function Lower(s: string): (r: string)
    ensures |r| == |s|
    ensures forall i :: 0 <= i < |s| ==> r[i] == LowerChar(s[i])
  {
    if s == [] then [] else [LowerChar(s[0])] + Lower(s[1..])
  }

  /** A word of lower-case ASCII letters has no white space and is its own lower-case form. */
  lemma LowercaseWord(s: string)
    requires forall i :: 0 <= i < |s| ==> 'a' <= s[i] <= 'z'
    ensures NoWhitespace(s) && Lower(s) == s
  {
  }

  /** `s.charAt(0).toUpperCase() + s.slice(1)`. */
  function Capitalize(s: string): string {
    if s == [] then [] else [UpperChar(s[0])] + s[1..]
  }

  /** Capitalizing a word never changes it as seen by a case-insensitive comparison. */
  lemma LowerCapitalize(s: string)
    ensures Lower(Capitalize(s)) == Lower(s)
  {
  }

  // ---------------------------------------------------------------------------
  // Substring containment: `text.includes(sub)`
  // ---------------------------------------------------------------------------

  /** `text.includes(sub)`: the empty string occurs in every text. */
  function Includes(text: string, sub: string): bool
    decreases |text|
  {
    if |sub| > |text| then false
    else if text[..|sub|] == sub then true
    else Includes(text[1..], sub)
  }

  /** `sub` occurs in `text` starting at index `i`. */
  ghost predicate OccursAt(text: string, sub: string, i: int) {
    0 <= i && i + |sub| <= |text| && text[i..i + |sub|] == sub
  }

  /** The scanning definition of `Includes` agrees with "occurs at some index". */
  lemma {:induction false} IncludesIff(text: string, sub: string)
    ensures Includes(text, sub) <==> exists i :: OccursAt(text, sub, i)
    decreases |text|
  {
    if |sub| > |text| {
      assert forall i :: !OccursAt(text, sub, i);
    } else if text[..|sub|] == sub {
      assert OccursAt(text, sub, 0);
    } else {
      var tail := text[1..];
      IncludesIff(tail, sub);
      assert !OccursAt(text, sub, 0);
      forall i | OccursAt(text, sub, i)
        ensures OccursAt(tail, sub, i - 1)
      {
        assert tail[i - 1..i - 1 + |sub|] == text[i..i + |sub|];
      }
      forall i | OccursAt(tail, sub, i)
        ensures OccursAt(text, sub, i + 1)
      {
        assert tail[i..i + |sub|] == text[i + 1..i + 1 + |sub|];
      }
    }
  }

  /** Whatever occurs in `t` still occurs once text is added on either side. */
  lemma IncludesWithin(a: string, t: string, b: string, sub: string)
    requires Includes(t, sub)
    ensures Includes(a + t + b, sub)
  {
    IncludesIff(t, sub);
    var i :| OccursAt(t, sub, i);
    var whole := a + t + b;
    assert whole[|a| + i..|a| + i + |sub|] == t[i..i + |sub|];
    assert OccursAt(whole, sub, |a| + i);
    IncludesIff(whole, sub);
  }

  /** Every character of an included string is a character of the text. */
  lemma IncludesChars(text: string, sub: string, c: char)
    requires Includes(text, sub) && c in sub
    ensures c in text
  {
  }

  /** Every string includes itself. */
  lemma IncludesSelf(s: string)
    ensures Includes(s, s)
  {
  }

  // ---------------------------------------------------------------------------
  // Concatenation of a sequence of strings
  // ---------------------------------------------------------------------------

  function Concat(parts: seq<string>): string {
    if parts == [] then "" else parts[0] + Concat(parts[1..])
  }

  /** Every part of a template built by concatenation occurs in the result. */
  lemma {:induction false} ConcatIncludesPart(parts: seq<string>, k: nat)
    requires k < |parts|
    ensures Includes(Concat(parts), parts[k])
  {
    if k == 0 {
      IncludesSelf(parts[0]);
      IncludesWithin("", parts[0], Concat(parts[1..]), parts[0]);
      assert "" + parts[0] + Concat(parts[1..]) == Concat(parts);
    } else {
      ConcatIncludesPart(parts[1..], k - 1);
      IncludesWithin(parts[0], Concat(parts[1..]), "", parts[k]);
      assert parts[0] + Concat(parts[1..]) + "" == Concat(parts);
    }
  }

  /** `s` ends with `suffix`. */
  predicate EndsWith(s: string, suffix: string) {
    |suffix| <= |s| && s[|s| - |suffix|..] == suffix
  }

  /** Whatever comes before it, a string ends with itself. */
  lemma EndsWithAppend(prefix: string, suffix: string)
    ensures EndsWith(prefix + suffix, suffix)
  {
    assert (prefix + suffix)[|prefix|..] == suffix;
  }

  /** A template built by concatenation ends with its last part. */
  lemma {:induction false} ConcatEndsWithLast(parts: seq<string>)
    requires parts != []
    ensures EndsWith(Concat(parts), parts[|parts| - 1])
  {
    if |parts| == 1 {
      assert Concat(parts) == parts[0] + "";
      assert parts[0] + "" == parts[0];
    } else {
      var rest := Concat(parts[1..]);
      var last := parts[|parts| - 1];
      ConcatEndsWithLast(parts[1..]);
      assert rest[|rest| - |last|..] == last;
      assert Concat(parts) == parts[0] + rest;
      assert (parts[0] + rest)[|parts[0] + rest| - |last|..] == rest[|rest| - |last|..];
    }
  }

  // ---------------------------------------------------------------------------
  // `s.split(/\s+/)`
  // ---------------------------------------------------------------------------

  /** Drops the run of white space at the front of `s`. */
  function DropWhitespace(s: string): (r: string)
    ensures |r| <= |s| && r == s[|s| - |r|..]
    ensures r == [] || !IsWhitespace(r[0])
    ensures s != [] && IsWhitespace(s[0]) ==> |r| < |s|
  {
    if s != [] && IsWhitespace(s[0]) then DropWhitespace(s[1..]) else s
  }

  /** Splits `s` at each maximal run of white space; `field` is the field read so far. */
  function Fields(s: string, field: string): seq<string>
    decreases |s|
  {
    if s == [] then [field]
    else if IsWhitespace(s[0]) then [field] + Fields(DropWhitespace(s), [])
    else Fields(s[1..], field + [s[0]])
  }

  /**
   * `s.split(/\s+/)`: like JavaScript, a leading or trailing run of white space
   * yields an empty first or last field, and the empty string yields `[""]`.
   */
  function SplitWhitespace(s: string): seq<string> {
    Fields(s, "")
  }

  /** The characters of `s` that are not white space, in order. */
  function NonWhitespace(s: string): string {
    if s == [] then []
    else (if IsWhitespace(s[0]) then [] else [s[0]]) + NonWhitespace(s[1..])
  }

  lemma {:induction false} NonWhitespaceDrop(s: string)
    ensures NonWhitespace(DropWhitespace(s)) == NonWhitespace(s)
  {
    if s != [] && IsWhitespace(s[0]) {
      NonWhitespaceDrop(s[1..]);
    }
  }

  lemma {:induction false} FieldsTokens(s: string, field: string)
    requires NoWhitespace(field)
    ensures |Fields(s, field)| >= 1
    ensures forall k :: 0 <= k < |Fields(s, field)| ==> NoWhitespace(Fields(s, field)[k])
    decreases |s|
  {
    if s == [] {
    } else if IsWhitespace(s[0]) {
      var rest := Fields(DropWhitespace(s), []);
      FieldsTokens(DropWhitespace(s), []);
      assert Fields(s, field) == [field] + rest;
      assert forall k :: 0 < k < |Fields(s, field)| ==> Fields(s, field)[k] == rest[k - 1];
    } else {
      FieldsTokens(s[1..], field + [s[0]]);
    }
  }

  lemma {:induction false} FieldsConcat(s: string, field: string)
    ensures Concat(Fields(s, field)) == field + NonWhitespace(s)
    decreases |s|
  {
    if s == [] {
      assert Concat([field]) == field + Concat([]);
    } else if IsWhitespace(s[0]) {
      FieldsConcat(DropWhitespace(s), []);
      FieldsConcatAtRun(s, field);
    } else {
      FieldsConcat(s[1..], field + [s[0]]);
      FieldsConcatAtChar(s, field);
    }
  }

  /** The step of `FieldsConcat` at white space: the field read so far is closed. */
  lemma FieldsConcatAtRun(s: string, field: string)
    requires s != [] && IsWhitespace(s[0])
    requires Concat(Fields(DropWhitespace(s), [])) == [] + NonWhitespace(DropWhitespace(s))
    ensures Concat(Fields(s, field)) == field + NonWhitespace(s)
  {
    var rest := Fields(DropWhitespace(s), []);
    NonWhitespaceDrop(s);
    assert Fields(s, field) == [field] + rest;
    assert ([field] + rest)[0] == field && ([field] + rest)[1..] == rest;
    assert Concat([field] + rest) == field + Concat(rest);
    assert [] + NonWhitespace(DropWhitespace(s)) == NonWhitespace(s);
  }

  /** The step of `FieldsConcat` at any other character: it joins the field. */
  lemma FieldsConcatAtChar(s: string, field: string)
    requires s != [] && !IsWhitespace(s[0])
    requires Concat(Fields(s[1..], field + [s[0]])) == field + [s[0]] + NonWhitespace(s[1..])
    ensures Concat(Fields(s, field)) == field + NonWhitespace(s)
  {
    assert Fields(s, field) == Fields(s[1..], field + [s[0]]);
    assert NonWhitespace(s) == [s[0]] + NonWhitespace(s[1..]);
    AppendAssociative(field, [s[0]], NonWhitespace(s[1..]));
  }

  lemma {:induction false} FieldsWithoutWhitespace(s: string, field: string)
    requires NoWhitespace(s)
    ensures Fields(s, field) == [field + s]
    decreases |s|
  {
    if s == [] {
      assert field + s == field;
    } else {
      FieldsWithoutWhitespace(s[1..], field + [s[0]]);
      assert field + [s[0]] + s[1..] == field + s;
    }
  }

  /** A string without white space is a single token. */
  lemma SplitWithoutWhitespace(s: string)
    requires NoWhitespace(s)
    ensures SplitWhitespace(s) == [s]
  {
    FieldsWithoutWhitespace(s, "");
    assert "" + s == s;
  }

  /**
   * Splitting at white space yields at least one token, no token contains white
   * space, and the tokens together hold every other character of `s`, in order.
   */
  lemma SplitWhitespaceShape(s: string)
    ensures |SplitWhitespace(s)| >= 1
    ensures forall k :: 0 <= k < |SplitWhitespace(s)| ==> NoWhitespace(SplitWhitespace(s)[k])
    ensures Concat(SplitWhitespace(s)) == NonWhitespace(s)
  {
    FieldsTokens(s, "");
    FieldsConcat(s, "");
  }

  /** Dropping a run of white space that is followed by a character that is not white space leaves that text. */
  lemma {:induction false} DropWhitespaceRun(w: string, b: string)
    requires forall i :: 0 <= i < |w| ==> IsWhitespace(w[i])
    requires b == [] || !IsWhitespace(b[0])
    ensures DropWhitespace(w + b) == b
  {
    if w == [] {
      assert w + b == b;
    } else {
      assert (w + b)[1..] == w[1..] + b;
      DropWhitespaceRun(w[1..], b);
    }
  }

  /** In text that ends with a character that is not white space, the leading run is all that is dropped. */
  lemma {:induction false} DropWhitespaceAppend(a: string, rest: string)
    requires a != [] && !IsWhitespace(a[|a| - 1])
    ensures DropWhitespace(a + rest) == DropWhitespace(a) + rest
    ensures DropWhitespace(a) != [] && DropWhitespace(a)[|DropWhitespace(a)| - 1] == a[|a| - 1]
  {
    assert (a + rest)[0] == a[0];
    if IsWhitespace(a[0]) {
      assert (a + rest)[1..] == a[1..] + rest;
      DropWhitespaceAppend(a[1..], rest);
    }
  }

  /** A run of white space with `b` after it: the field read so far ends, and `b`'s fields follow. */
  lemma FieldsOfRun(w: string, b: string, field: string)
    requires w != [] && forall i :: 0 <= i < |w| ==> IsWhitespace(w[i])
    requires b == [] || !IsWhitespace(b[0])
    ensures Fields(w + b, field) == [field] + Fields(b, [])
  {
    assert (w + b)[0] == w[0];
    DropWhitespaceRun(w, b);
  }

  /** The fields of `a`, a run of white space, then `b`: the fields of `a` followed by those of `b`. */
  lemma {:induction false} FieldsAtRun(a: string, w: string, b: string, field: string)
    requires w != [] && forall i :: 0 <= i < |w| ==> IsWhitespace(w[i])
    requires a == [] || !IsWhitespace(a[|a| - 1])
    requires b == [] || !IsWhitespace(b[0])
    ensures Fields(a + w + b, field) == Fields(a, field) + Fields(b, [])
    decreases |a|
  {
    if a == [] {
      assert a + w + b == w + b;
      FieldsOfRun(w, b, field);
    } else if IsWhitespace(a[0]) {
      DropWhitespaceAppend(a, w + b);
      FieldsAtRun(DropWhitespace(a), w, b, []);
      FieldsAfterRunStep(a, w, b, field);
    } else {
      assert (a + w + b)[0] == a[0] && (a + w + b)[1..] == a[1..] + w + b;
      FieldsAtRun(a[1..], w, b, field + [a[0]]);
    }
  }

  lemma FieldsAfterRunStep(a: string, w: string, b: string, field: string)
    requires a != [] && IsWhitespace(a[0]) && !IsWhitespace(a[|a| - 1])
    requires Fields(DropWhitespace(a) + w + b, []) == Fields(DropWhitespace(a), []) + Fields(b, [])
    ensures Fields(a + w + b, field) == Fields(a, field) + Fields(b, [])
  {
    var d := DropWhitespace(a);
    AppendAssociative(a, w, b);
    AppendAssociative(d, w, b);
    FieldsAfterLeadingRun(a, w + b, field);
    AppendAssociative([field], Fields(d, []), Fields(b, []));
  }

  lemma AppendAssociative<T>(x: seq<T>, y: seq<T>, z: seq<T>)
    ensures x + (y + z) == x + y + z
  {
  }

  /** Text starting with white space: the field read so far ends, and the fields after the run follow. */
  lemma FieldsAfterLeadingRun(a: string, rest: string, field: string)
    requires a != [] && IsWhitespace(a[0]) && !IsWhitespace(a[|a| - 1])
    ensures Fields(a + rest, field) == [field] + Fields(DropWhitespace(a) + rest, [])
    ensures Fields(a, field) == [field] + Fields(DropWhitespace(a), [])
  {
    assert (a + rest)[0] == a[0];
    DropWhitespaceAppend(a, rest);
  }

  /**
   * A maximal run of white space is a token boundary: the tokens of `a`, the run, then
   * `b` are the tokens of `a` followed by the tokens of `b`.
   */
  lemma SplitWhitespaceAtRun(a: string, w: string, b: string)
    requires w != [] && forall i :: 0 <= i < |w| ==> IsWhitespace(w[i])
    requires a == [] || !IsWhitespace(a[|a| - 1])
    requires b == [] || !IsWhitespace(b[0])
    ensures SplitWhitespace(a + w + b) == SplitWhitespace(a) + SplitWhitespace(b)
  {
    FieldsAtRun(a, w, b, "");
  }

  // ---------------------------------------------------------------------------
  // `s.split(sep)` for a one-character separator
  // ---------------------------------------------------------------------------

  function FieldsOn(s: string, sep: char, field: string): (r: seq<string>)
    ensures |r| >= 1
    decreases |s|
  {
    if s == [] then [field]
    else if s[0] == sep then [field] + FieldsOn(s[1..], sep, [])
    else FieldsOn(s[1..], sep, field + [s[0]])
  }

  /** `s.split(sep)`: every occurrence of `sep` ends a field, so `"a::b"` has an empty middle field. */
  function SplitOn(s: string, sep: char): (r: seq<string>)
    ensures |r| >= 1
  {
    FieldsOn(s, sep, "")
  }

  lemma {:induction false} FieldsOnPlain(a: string, sep: char, field: string)
    requires sep !in a
    ensures FieldsOn(a, sep, field) == [field + a]
    decreases |a|
  {
    if a == [] {
      assert field + a == field;
    } else {
      FieldsOnPlain(a[1..], sep, field + [a[0]]);
      assert field + [a[0]] + a[1..] == field + a;
    }
  }

  lemma {:induction false} FieldsOnFirst(a: string, sep: char, b: string, field: string)
    requires sep !in a
    ensures FieldsOn(a + [sep] + b, sep, field) == [field + a] + FieldsOn(b, sep, [])
    decreases |a|
  {
    var s := a + [sep] + b;
    if a == [] {
      assert s[0] == sep && s[1..] == b;
      assert field + a == field;
    } else {
      assert s[0] == a[0] && s[1..] == a[1..] + [sep] + b;
      FieldsOnFirst(a[1..], sep, b, field + [a[0]]);
      assert field + [a[0]] + a[1..] == field + a;
    }
  }

  /** The first two fields of `a + sep + b + rest`, where `rest` is empty or begins a new field. */
  lemma SplitOnTwoFields(a: string, sep: char, b: string, rest: string)
    requires sep !in a && sep !in b
    requires rest == [] || rest[0] == sep
    ensures |SplitOn(a + [sep] + b + rest, sep)| >= 2
    ensures SplitOn(a + [sep] + b + rest, sep)[0] == a
    ensures SplitOn(a + [sep] + b + rest, sep)[1] == b
  {
    assert a + [sep] + b + rest == a + [sep] + (b + rest);
    FieldsOnFirst(a, sep, b + rest, "");
    if rest == [] {
      assert b + rest == b;
      FieldsOnPlain(b, sep, []);
    } else {
      assert b + rest == b + [sep] + rest[1..];
      FieldsOnFirst(b, sep, rest[1..], []);
    }
  }

  /** Without the separator, `split` yields the whole string as its only field. */
  lemma SplitOnNoSeparator(s: string, sep: char)
    requires sep !in s
    ensures SplitOn(s, sep) == [s]
  {
    FieldsOnPlain(s, sep, "");
    assert "" + s == s;
  }

  // ---------------------------------------------------------------------------
  // `items.join(sep)`
  // ---------------------------------------------------------------------------

  /** `items.join(sep)`: `[].join(sep)` is the empty string. */
  function Join(items: seq<string>, sep: string): string {
    if items == [] then ""
    else if |items| == 1 then items[0]
    else items[0] + sep + Join(items[1..], sep)
  }

  /** Each joined item occurs in the joined text. */
  lemma {:induction false} JoinIncludesItem(items: seq<string>, sep: string, k: nat)
    requires k < |items|
    ensures Includes(Join(items, sep), items[k])
  {
    if |items| == 1 {
      IncludesSelf(items[0]);
    } else if k == 0 {
      IncludesSelf(items[0]);
      IncludesWithin("", items[0], sep + Join(items[1..], sep), items[0]);
      assert "" + items[0] + (sep + Join(items[1..], sep)) == Join(items, sep);
    } else {
      JoinIncludesItem(items[1..], sep, k - 1);
      IncludesWithin(items[0] + sep, Join(items[1..], sep), "", items[k]);
      assert items[0] + sep + Join(items[1..], sep) + "" == Join(items, sep);
    }
  }

  // ---------------------------------------------------------------------------
  // Numbers as text
  // ---------------------------------------------------------------------------

  function DigitChar(d: nat): (c: char)
    requires d < 10
    ensures IsDigit(c)
  {
    ('0' as int + d) as char
  }

  function DigitValue(c: char): nat
    requires IsDigit(c)
  {
    c as int - '0' as int
  }

  /** A natural number in a template literal: decimal digits, no leading zeros. */
  function NatToString(n: nat): (r: string)
    ensures |r| >= 1 && AllDigits(r)
    decreases n
  {
    if n < 10 then [DigitChar(n)] else NatToString(n / 10) + [DigitChar(n % 10)]
  }

  /** An integer in a template literal. */
  function IntToString(i: int): string {
    if i < 0 then "-" + NatToString(-i) else NatToString(i)
  }

  /** The value of a string of decimal digits. */
  function DigitsValue(ds: string): nat
    requires AllDigits(ds)
  {
    if ds == [] then 0 else DigitsValue(ds[..|ds| - 1]) * 10 + DigitValue(ds[|ds| - 1])
  }

  /** Reading back the decimal text of a number gives the number. */
  lemma {:induction false} NatToStringRoundTrip(n: nat)
    ensures DigitsValue(NatToString(n)) == n
    decreases n
  {
    var r := NatToString(n);
    if n >= 10 {
      NatToStringRoundTrip(n / 10);
      assert r[..|r| - 1] == NatToString(n / 10);
    }
  }

  /** The longest prefix of `s` made of decimal digits. */
  function LeadingDigits(s: string): (r: string)
    ensures |r| <= |s| && r == s[..|r|] && AllDigits(r)
    ensures |r| < |s| ==> !IsDigit(s[|r|])
  {
    if s != [] && IsDigit(s[0]) then [s[0]] + LeadingDigits(s[1..]) else []
  }

  lemma {:induction false} LeadingDigitsOf(ds: string, rest: string)
    requires AllDigits(ds)
    requires rest == [] || !IsDigit(rest[0])
    ensures LeadingDigits(ds + rest) == ds
  {
    if ds != [] {
      assert (ds + rest)[1..] == ds[1..] + rest;
      LeadingDigitsOf(ds[1..], rest);
    } else {
      assert ds + rest == rest;
    }
  }

  /**
   * `parseInt(s)` in base 10: leading white space is skipped, one sign is read,
   * then the longest run of decimal digits; `None` stands for `NaN`.
   */
  function ParseInt(s: string): Option<int> {
    var t := DropWhitespace(s);
    var negative := t != [] && t[0] == '-';
    var unsigned := if t != [] && (t[0] == '-' || t[0] == '+') then t[1..] else t;
    var ds := LeadingDigits(unsigned);
    var magnitude: int := if ds == [] then 0 else DigitsValue(ds);
    if ds == [] then None
    else if negative then Some(-magnitude)
    else Some(magnitude)
  }

  /** A digit is not white space, so `parseInt` of text starting with a digit reads its leading digits. */
  lemma ParseIntFromDigit(s: string)
    requires s != [] && IsDigit(s[0])
    ensures ParseInt(s) == Some(DigitsValue(LeadingDigits(s)))
  {
    assert !IsWhitespace(s[0]);
    assert DropWhitespace(s) == s;
    assert LeadingDigits(s) != [];
  }

  /** `parseInt` reads back a number written in decimal, whatever text follows it. */
  lemma ParseIntOfDigits(ds: string, rest: string)
    requires |ds| >= 1 && AllDigits(ds)
    requires rest == [] || !IsDigit(rest[0])
    ensures ParseInt(ds + rest) == Some(DigitsValue(ds))
  {
    var s := ds + rest;
    assert s[0] == ds[0];
    ParseIntFromDigit(s);
    LeadingDigitsOf(ds, rest);
  }

  /** `parseInt` reads back a count written by `NatToString`, whatever text follows it. */
  lemma ParseIntOfNat(n: nat, rest: string)
    requires rest == [] || !IsDigit(rest[0])
    ensures ParseInt(NatToString(n) + rest) == Some(n)
  {
    ParseIntOfDigits(NatToString(n), rest);
    NatToStringRoundTrip(n);
  }

  // ---------------------------------------------------------------------------
  // Ascending order of strings
  // ---------------------------------------------------------------------------

  /** Lexicographic order by code point: for zero-padded times and ISO dates it is chronological order. */
  predicate LexLe(a: string, b: string) {
    if a == [] then true
    else if b == [] then false
    else if a[0] != b[0] then a[0] < b[0]
    else LexLe(a[1..], b[1..])
  }

  /** Any two strings are ordered one way or the other. */
  lemma {:induction false} LexLeTotal(a: string, b: string)
    ensures LexLe(a, b) || LexLe(b, a)
  {
    if a != [] && b != [] && a[0] == b[0] {
      LexLeTotal(a[1..], b[1..]);
    }
  }

  /** The order is transitive. */
  lemma {:induction false} LexLeTransitive(a: string, b: string, c: string)
    requires LexLe(a, b) && LexLe(b, c)
    ensures LexLe(a, c)
  {
    if a != [] && b != [] && c != [] && a[0] == b[0] && b[0] == c[0] {
      LexLeTransitive(a[1..], b[1..], c[1..]);
    }
  }
}

=== FILE: wrappers.dfy ===
/** Optional values: a JavaScript field or variable that may be `undefined` or `null`. */
module Wrappers {

  datatype Option<+T> = None | Some(value: T)
}
